=== FILE: README.md ===
# emr-mailer: send-report.rb in Dafny

`send-report.rb` is a job step for Amazon Elastic MapReduce. After a Hive
report has been written to S3, the script:

- reads the cluster's AWS key and secret from the Hadoop configuration;
- writes them into `/home/hadoop/.s3cfg` (the `HADOOP` directory, whoever runs the script) for `s3cmd`;
- lists the report prefix and downloads every object under it;
- concatenates and zips the objects;
- mails the zip as a base64 MIME attachment through Gmail's SMTP server.

This project models the decision logic of that script. That logic covers:

- how the credentials are found;
- what configuration text is written, and when;
- which listing lines become downloads and where they go;
- when the run stops with which error;
- how the mail text is laid out;
- how the SMTP HELO domain is derived from the sender.

The shell, the network and the mail transport are parameters or are left out.

Modules, one per file:

- `Wrappers` (wrappers.dfy): `Option` and `Result`.
- `Text` (text.dfy): Ruby 1.8's line splitting. `IO.readlines` and `String#each` cut a text after every "\n" and keep the "\n" on its line.
- `Tags` (tags.dfy): the two property regexes of `getCredentials`, as an explicit search with Ruby's leftmost start and greedy `(.+)`.
- `Credentials` (credentials.dfy): `getCredentials`. `GetCredentials` is the nested loop, with the early `return`. `Resolve` is its specification: a scan over the stream of configuration lines.
- `S3Config` (s3config.dfy): `configureS3Cmd`. The class `FileSystem` holds the machine's files as a map, and `ConfigureS3Cmd` updates that map in place.
- `Listing` (listing.dfy): the trailing-slash rule for the report prefix, and the `s3cmd ls` line regex with its greedy, lazy and anchored parts.
- `Report` (report.dfy): `prepareReport`. It returns the error or the report path, together with the commands it ran.
- `Domain` (domain.dfy): `getDomainFromAddress`.
- `Mail` (mail.dfy): the three heredocs of `mailReport` and what is handed to SMTP. The sender `FROM_EMAIL`, which the user is told to edit (lines 19-20), is a parameter; `Domain.FromEmail` is the value shipped in the script.
- `Options` (options.dfy): the check that all four command-line options were given.

Where the code does something a reader may not expect, the model follows the code:

- The credential scan keeps its two slots across both files. So a key in `core-site.xml` pairs with a secret in `hadoop-site.xml`. The files are not tried one at a time.
- The prefix test `/^.*\/$/` passes when any line of the prefix ends in "/", not only the last.
- In `getDomainFromAddress` the anchors `^` and `$` hold at every line break, and `[^@]` matches a newline too. So for a multi-line address the match can start on any line and cross line breaks. The domain runs from the "@" to the last line end, or the end of the text, before any later "@".
- Line 87 reads `each do { |f|`, which mixes block forms. It is modelled as the plain ordered iteration that is evidently meant.

## Model

| member | source | states |
|---|---|---|
| `Credentials.GetCredentials` | src/send-report.rb:81-105 | The two nested loops, with the early return, give exactly `Resolve(files)`: the slots just after the first configuration line that completes both, or nil. |
| `Credentials.Resolve` | src/send-report.rb:81-105 | The specification of the lookup: scan the lines of `core-site.xml`, then of `hadoop-site.xml` (a missing file gives none), and return the slots just after the first line that completes both, or nil. |
| `Credentials.ScanFile` | src/send-report.rb:89-100 | The loop over one file's lines, continuing from the slots left by earlier files. `found` holds exactly when the scan completes within this file, and the slots then hold the pair it returns. Otherwise the slots are the state the scan reached. |
| `Credentials.ReadLine` | src/send-report.rb:89-99 | Reading one more line while the pair is incomplete applies that line's matches to the slots, and returns exactly when both are then set. |
| `Credentials.FirstWins` | src/send-report.rb:97-99 | Once the lines read complete the pair, later lines change nothing: the early return. |
| `Credentials.ReturnEarly` | src/send-report.rb:97-99 | Returning after line `j` of a file gives the same result as scanning the whole stream. |
| `Credentials.ClassifyAppend` | src/send-report.rb:89-95 | Each line is matched on its own; classifying joined line lists joins the results. |
| `Credentials.RunAppend` | src/send-report.rb:84-95 | The slots after reading two runs of lines are those after the first run, carried into the second. |
| `Credentials.ScanAppendNone` | src/send-report.rb:84-100 | While the pair is incomplete, the scan goes on from the slots reached so far, across file boundaries. |
| `Credentials.ScanAppendSome` | src/send-report.rb:97-99 | Once the pair is complete, nothing appended after it is read. |
| `Credentials.ScanSomeIff` | src/send-report.rb:84-104 | The scan returns credentials exactly when some prefix of the line stream completes both slots. |
| `Credentials.ScanAtFirst` | src/send-report.rb:97-98 | The pair returned is the slots' value after the shortest completing prefix. |
| `Credentials.ScanHasFirst` | src/send-report.rb:97-98 | A non-nil result always comes from some shortest completing prefix. |
| `Credentials.OrderIndependent` | src/send-report.rb:87-99 | For a key and a secret that are non-empty and contain no newline and no `<`, a `core-site.xml` holding the key line and the secret line, in either order, yields exactly that pair. |
| `Credentials.CoreHoldsPair` | src/send-report.rb:87-99 | Any two whole lines that read as a key and as a secret, placed in `core-site.xml` in either order, yield that pair. |
| `Credentials.EitherOrder` | src/send-report.rb:90-98 | A key match and a secret match complete the pair whichever comes first. |
| `Credentials.KeyAndSecretLines` | src/send-report.rb:90-95 | For a key and a secret that are non-empty and contain no newline and no `<`, the key property line and the secret property line are whole lines, and each is read by its own pattern only. |
| `Credentials.KeyLineReads` | src/send-report.rb:93-94 | For a key that is non-empty and contains no newline and no `<`, the key property line sets only the key slot, to its value. |
| `Credentials.SecretLineReads` | src/send-report.rb:90-91 | For a secret that is non-empty and contains no newline and no `<`, the secret property line sets only the secret slot, to its value. |
| `Credentials.ClassifyKeyLine` | src/send-report.rb:90-95 | For a key that is non-empty and contains no newline and no `<`, both patterns applied to its key line give no secret and the key's value. |
| `Credentials.ClassifySecretLine` | src/send-report.rb:90-95 | For a secret that is non-empty and contains no newline and no `<`, both patterns applied to its secret line give the secret's value and no key. |
| `Credentials.StreamShape` | src/send-report.rb:87-89 | The scan reads `core-site.xml`'s lines, then `hadoop-site.xml`'s. |
| `Credentials.MissingCoreSiteSkipped` | src/send-report.rb:88 | A missing `core-site.xml` is skipped, and the result is the scan of `hadoop-site.xml` alone. |
| `Credentials.FallbackToHadoopSite` | src/send-report.rb:87-99 | For a key and a secret that are non-empty and contain no newline and no `<`: with only `hadoop-site.xml` present and holding both lines, its pair is returned (the Hadoop 0.18 layout). |
| `Credentials.HadoopSiteHoldsPair` | src/send-report.rb:87-99 | Any two whole lines that read as a key then a secret, in `hadoop-site.xml` alone, yield that pair. |
| `Credentials.PairAcrossFiles` | src/send-report.rb:84-99 | For a key and a secret that are non-empty and contain no newline and no `<`, the key line in `core-site.xml` pairs with the secret line in `hadoop-site.xml`, because the slots outlive the file loop. |
| `Credentials.CoreDecides` | src/send-report.rb:87-99 | When `core-site.xml` alone completes a pair, `hadoop-site.xml` is never consulted. |
| `Credentials.LaterKeyOverwrites` | src/send-report.rb:93-94 | For values that are non-empty and contain no newline and no `<`, a second key line before completion overwrites the first key: the later value is returned. |
| `Credentials.KeyThenSecret` | src/send-report.rb:90-98 | At the level of matches, a key then a secret yields that pair. |
| `Credentials.KeyOverwrittenBeforeCompletion` | src/send-report.rb:93-98 | At the level of matches, key `k1`, then key `k2`, then a secret yields `k2`. |
| `Credentials.NoConfigNoCredentials` | src/send-report.rb:104 | Without either configuration file the result is nil. |
| `Credentials.ResolvedPlain` | src/send-report.rb:90-94 | Credentials found in the configuration are non-empty values with no newline. |
| `Credentials.ScanPlain` | src/send-report.rb:90-98 | Slots that only ever receive captured values return only captured values. |
| `Credentials.ClassifyPlain` | src/send-report.rb:90-94 | Every slot value a line sets is non-empty and has no newline. |
| `Credentials.ClassifyLine` | src/send-report.rb:90-94 | What one configuration line sets: the `$1` of the secret pattern and the `$1` of the key pattern, each absent when its pattern does not match. |
| `Credentials.Classify` | src/send-report.rb:89-95 | As many results as lines, and the result at each position is `ClassifyLine` of the line at that position, so file order is kept. |
| `Credentials.Step` | src/send-report.rb:90-95 | Reading one line: a pattern that matches overwrites its slot, and a slot whose pattern does not match keeps its value. |
| `Credentials.ScanFrom` | src/send-report.rb:87-104 | The value of the scan: the pair as it stands just after the first line that completes both slots, or nil when no line does. |
| `Credentials.Complete` | src/send-report.rb:97 | The `secret && key` test: both slots are set. |
| `Credentials.CredentialsOf` | src/send-report.rb:98 | The `Struct` returned once the test passes, holding the key slot's value and the secret slot's value. |
| `Credentials.Run` | src/send-report.rb:89-95 | The slots after reading a run of lines from given slots, with no early return: each line's matches overwrite their slots in turn. |
| `Credentials.FileLines` | src/send-report.rb:88-89 | The lines `IO.readlines` gives for one candidate file, and none when `File.exists?` fails. |
| `Credentials.StreamOf` | src/send-report.rb:87-89 | The lines of the candidate files in the given order, a missing file contributing nothing. |
| `Credentials.Stream` | src/send-report.rb:87-89 | Every line the scan may read: `core-site.xml`'s lines, then `hadoop-site.xml`'s, both under `/home/hadoop/conf/`. |
| `Tags.Match` | src/send-report.rb:90 | `$1` of a property pattern, when there is one, is non-empty and has no newline. |
| `Tags.FindFrom` | src/send-report.rb:90 | The leftmost match at or after `i`, with the longest capture, and no match further left. |
| `Tags.LastClose` | src/send-report.rb:90 | The greedy `(.+)` backs off to the last closing tags in range. |
| `Tags.TagLineMatches` | src/send-report.rb:93 | A property line `<property><name>N</name><value>V</value></property>` with its newline captures exactly `V`. |
| `Tags.MatchesValue` | src/send-report.rb:90 | The same, for any opening part without a newline. |
| `Tags.LineCaptures` | src/send-report.rb:90 | On a property line the capture runs from the opening part to the closing tags, and no later closing tags exist. |
| `Tags.TagLinesExclusive` | src/send-report.rb:90-94 | For values without `<`, the secret pattern never matches a key line, and the key pattern never matches a secret line. |
| `Tags.NoMatchWithoutOpen` | src/send-report.rb:90 | A line in which the opening part occurs nowhere gives nil. |
| `Tags.NoOpenInOtherLine` | src/send-report.rb:90-93 | One property's opening part cannot occur in another property's line. |
| `Tags.Captures` | src/send-report.rb:90 | The whole pattern matches with the opening tags at one position and the closing tags at a later one: the captured `(.+)` between them is non-empty and has no newline. |
| `S3Config.FileSystem.ConfigureS3Cmd` | src/send-report.rb:108-122 | It changes the file map exactly as `WriteIfAbsent` says. An existing `.s3cfg` is untouched. Otherwise the file is created and receives the six configuration lines; with nil credentials it is left empty and the call fails. |
| `S3Config.FileSystem.constructor` | src/send-report.rb:110 | The file system starts as the given map. |
| `S3Config.Render` | src/send-report.rb:112-119 | The configuration text: `[default]`, `access_key = ` and the key, three fixed settings, `secret_key = ` and the secret, one per line. |
| `S3Config.ConfigLines` | src/send-report.rb:113-118 | The six lines of the configuration heredoc: `[default]`, `access_key = ` with the key, `acl_public = False`, `bucket_location = US`, `encrypt = False`, and `secret_key = ` with the secret. |
| `S3Config.WriteIfAbsent` | src/send-report.rb:108-122 | The specification of `configureS3Cmd`: an existing `.s3cfg` is left alone and the call succeeds. Otherwise the file is created; it then holds the rendered text, or stays empty when the credentials are nil and the call fails. |
| `S3Config.RenderLines` | src/send-report.rb:112-119 | The written file reads back as six lines: `[default]`, the key line, three fixed settings and the secret line. |
| `S3Config.ConfigLinesWhole` | src/send-report.rb:113-118 | Each of the six configuration lines is one whole line. |
| `S3Config.RenderInjective` | src/send-report.rb:112-119 | The configuration text determines the credentials it was written from. |
| `S3Config.ConfiguredFromHadoop` | src/send-report.rb:108-122 | Credentials found in the Hadoop files, written to a fresh `.s3cfg`, read back as the six lines carrying them. |
| `S3Config.WriteIfAbsentFrame` | src/send-report.rb:110 | Every path other than `.s3cfg` is left as it was, and so is an existing `.s3cfg`. |
| `S3Config.WriteIfAbsentIdempotent` | src/send-report.rb:110 | A second run finds the file and changes nothing. |
| `S3Config.WriteIfAbsentFails` | src/send-report.rb:110-121 | The call fails exactly when the file is absent and the credentials are nil. On success the file then holds the rendered configuration. |
| `Listing.NormalizePrefix` | src/send-report.rb:133-135 | The result has a line ending in "/". It starts with the input and is at most one character longer. |
| `Listing.NormalizeOneLine` | src/send-report.rb:133-135 | For a one-line prefix, a "/" is appended exactly when it does not already end in one. |
| `Listing.NormalizeIdempotent` | src/send-report.rb:133-135 | Normalising twice gives the same as normalising once. |
| `Listing.ParseLine` | src/send-report.rb:140-142 | `part` starts with `s3://` and ends with `file`. `file` is non-empty and has no "/". The line ends with `part` and its newline. |
| `Listing.ParseLineIff` | src/send-report.rb:140 | A listing line is downloaded exactly when it ends in "\n", names an `s3://` URL and does not end in "/". Directory entries are skipped. |
| `Listing.ParseLineLastSegment` | src/send-report.rb:140-142 | `file` is the whole last path segment of `part`: a "/" precedes it. |
| `Listing.ParseLineLastScheme` | src/send-report.rb:140-141 | `part` starts at the last `s3://` of the line, as the greedy `^.*` forces. |
| `Listing.LaterScheme` | src/send-report.rb:140 | An `s3://` inside a matched `$1` would itself start a match further right. |
| `Listing.GreedyFrom` | src/send-report.rb:140 | Any result found is a match starting at or before `p`. |
| `Listing.GreedyFromFirst` | src/send-report.rb:140 | The match reported has the rightmost `s3://`, then the shortest `.*?`, then the longest `$2`. |
| `Listing.GreedyFromNone` | src/send-report.rb:140 | No match is reported only when there is none. |
| `Listing.LazyFrom` | src/send-report.rb:140 | Any result found is a match whose `$2` starts at or after `q`. |
| `Listing.LazyFromFirst` | src/send-report.rb:140 | The lazy `.*?` takes the shortest length that leads to a match, and `$2` is then the longest. |
| `Listing.LastEnd` | src/send-report.rb:140 | `\n$` after `[^\/]+` is found at the largest position where it holds. |
| `Listing.AcceptsAtEnd` | src/send-report.rb:140 | In a single line, every match ends at the line's final newline. |
| `Listing.LineEndsInSlash` | src/send-report.rb:133 | `/^.*\/$/` matches: some character "/" is followed by a line end or by the end of the text. |
| `Listing.Accepts` | src/send-report.rb:140 | The listing-line pattern matches: `s3://` after a prefix without newline, a lazy run without newline, then `$2`, a non-empty run without "/" (a newline may occur in it), up to a "\n" that is followed by a line end or the end of the text. |
| `Report.PrepareReport` | src/send-report.rb:125-159 | The script's result and the commands it runs are exactly `Prepare`: normalise the prefix, download each listed object, stop at the first failure, concatenate, zip, return `tmp/name.zip`. |
| `Report.DownloadAll` | src/send-report.rb:139-148 | `filecount` is the number of objects found, and the downloads issued are one per object in listing order. The run stops at the first failed download and reports its `part`. |
| `Report.Prepare` | src/send-report.rb:125-159 | The specification of `prepareReport`: normalise the prefix, take the objects its listing shows, then proceed as `Finish`. |
| `Report.Finish` | src/send-report.rb:139-158 | With the objects known: download each in order and stop at the first failure with its `part`; with none, raise "no files found"; else concatenate, zip and return `tmp/name.zip`, raising if either command fails. Also returns the commands run. |
| `Report.PrepareOkIff` | src/send-report.rb:139-158 | The report path is returned exactly when the listing shows an object and every command run succeeds. It is then `tmp/name.zip`, after one download per object, the concatenation and the zip. |
| `Report.NoFilesIff` | src/send-report.rb:150 | "no files found" is raised exactly when no line of the listing names an object. |
| `Report.FinishNoFilesIff` | src/send-report.rb:150 | Once the objects are known, "no files found" is raised exactly when there are none. |
| `Report.DownloadFailureStops` | src/send-report.rb:144 | A failed download ends the run at once. The commands run are the downloads up to and including the failing one, and all earlier ones succeeded. |
| `Report.FinishFailureStops` | src/send-report.rb:144 | The same, once the listed objects are known. |
| `Report.EntriesEmptyIff` | src/send-report.rb:139-150 | A listing yields no object exactly when none of its lines lists one. |
| `Report.FoundEmptyIff` | src/send-report.rb:139-147 | Nothing is found exactly when no line matched. |
| `Report.FoundAppend` | src/send-report.rb:139-147 | Objects are collected in listing order, line by line. |
| `Report.GetsFor` | src/send-report.rb:144 | One `s3cmd get` per object, in order, each fetching `part` into `tmp/parts/file`. |
| `Report.FirstFailed` | src/send-report.rb:144 | Every command before the index succeeds, and the command at the index fails. |
| `Report.FailsAt` | src/send-report.rb:144 | The first failure is unique: an index with all earlier commands succeeding and itself failing is it. |
| `Report.StopAt` | src/send-report.rb:144 | A failed download at line `i` is the first failure over the whole listing. |
| `Report.PartsDir` | src/send-report.rb:127 | The download directory `tmp/parts`. |
| `Report.PartPath` | src/send-report.rb:144 | Where an object is downloaded: `tmp/parts/file`. |
| `Report.ReportDir` | src/send-report.rb:153 | The directory that gets zipped: `tmp/name`. |
| `Report.CsvPath` | src/send-report.rb:154 | The concatenated file: `tmp/name/name.csv`. |
| `Report.ZipPath` | src/send-report.rb:156-158 | The zip, and the path returned: `tmp/name.zip`. |
| `Report.PartPathLayout` | src/send-report.rb:144 | Each object is stored directly under `tmp/parts`, named by `file`; distinct names give distinct paths. |
| `Report.ReportLayout` | src/send-report.rb:153-158 | The CSV is written inside the directory that gets zipped, and the zip lies outside it. |
| `Report.ParseAll` | src/send-report.rb:139-140 | The pattern's outcome on each line of the listing, one per line, in listing order. |
| `Report.Found` | src/send-report.rb:139-147 | The objects downloaded, in listing order: exactly the lines the pattern matched, never more than the lines. |
| `Report.ListingEntries` | src/send-report.rb:133-147 | The objects found in the listing of the prefix once its trailing "/" is ensured. |
| `Report.PrepareTrailingSlash` | src/send-report.rb:133-135 | A one-line prefix given without its trailing "/" yields the same listing, the same commands and the same outcome as the same prefix given with it. |
| `Domain.DomainFromAddress` | src/send-report.rb:161-167 | A returned domain is non-empty and has no "@". On failure the error is the message on line 166 for that address. |
| `Domain.DomainOneLine` | src/send-report.rb:161-167 | For a one-line address, the result is the domain exactly when the address is `local@domain` with one "@" and text on both sides; otherwise the call raises. |
| `Domain.DomainOfSplit` | src/send-report.rb:162-163 | `local@domain` with a single "@" gives `domain`. |
| `Domain.OneLineAccepts` | src/send-report.rb:162 | On a one-line address a match spans the whole address and splits it at its only "@". |
| `Domain.SearchFrom` | src/send-report.rb:162 | A result is a match starting at or after the given position, and no earlier start position from there matches; none is reported only when no start position from there matches. |
| `Domain.MatchAt` | src/send-report.rb:162 | A match at a start position is found exactly when one exists; the "@" it reports is the only one any match from that start can use, and its end is the largest any such match reaches (the greedy `+`). |
| `Domain.LastDollar` | src/send-report.rb:162 | The greedy `([^@]+)$` ends at the largest position in the range where `$` holds, and reports none when `$` holds nowhere in the range. |
| `Domain.PlaceholderSenderFails` | src/send-report.rb:8 | The shipped sender `FROM GMAIL ADDRESS HERE` has no "@", so the domain lookup raises. |
| `Domain.MultiLineAddress` | src/send-report.rb:162 | With line anchors, `a@b` followed by a newline and `c@d` gives `b`. |
| `Domain.Accepts` | src/send-report.rb:162 | The address pattern matches from a line start: a non-empty run without "@", the "@", then a non-empty run without "@" up to a line end or the end of the text. |
| `Domain.ErrorMessage` | src/send-report.rb:166 | The message raised when the address does not match, naming the address. |
| `Mail.MailText` | src/send-report.rb:201 | The message joins the three heredocs. Whatever the inputs, it opens with the `From:` line of the sender and ends with `--1234_REPORT_MARKER--` and its newline. |
| `Mail.MailLines` | src/send-report.rb:172-201 | For a sender, recipient, subject and name without newlines, read back line by line, the message is six header lines, five text-part lines, four attachment lines, the encoded lines, a blank line and the closing delimiter. |
| `Mail.Layout` | src/send-report.rb:201 | Three runs of whole lines joined with the attachment body split back into those lines, the body's lines, a blank line and the closing line. |
| `Mail.LayoutJoined` | src/send-report.rb:195-198 | Whole lines, the encoded text, a blank line and the closing line split back into exactly those. |
| `Mail.FirstBlankLine` | src/send-report.rb:174-186 | Among the fifteen heredoc lines before the encoded zip (`HeadLines`), the first blank line is index 8: the boundary line and the text part's headers come before it, inside the header block. Through `Mail.MailLines` this is the first blank line of the message text whenever sender, recipient, subject and name have no newline. |
| `Mail.HeaderLinesWhole` | src/send-report.rb:174-181 | Each header line is one whole line when the sender, recipient and subject have no newline. |
| `Mail.MsgLinesWhole` | src/send-report.rb:183-189 | Each text-part line is one whole line when the name has no newline. |
| `Mail.AttachLinesWhole` | src/send-report.rb:191-195 | Each attachment header line is one whole line when the name has no newline. |
| `Mail.DelimitersWhole` | src/send-report.rb:180-197 | The boundary line, the closing boundary line and the blank line are whole lines. |
| `Mail.HeaderLines` | src/send-report.rb:174-181 | The first heredoc: the `From:`, `To:` and `Subject:` lines, the MIME version, the multipart header with the boundary, and the opening delimiter. |
| `Mail.MsgLines` | src/send-report.rb:183-189 | The second heredoc: the text part's headers, a blank line, `<name> attached.` and the delimiter. |
| `Mail.AttachLines` | src/send-report.rb:191-195 | The third heredoc before the encoded zip: the attachment's type with `<name>.zip`, the base64 encoding, the disposition with the file name, and a blank line. |
| `Mail.Attach` | src/send-report.rb:191-198 | The third heredoc: those lines, the encoded zip and its newline, then the closing delimiter. |
| `Mail.FromLine` | src/send-report.rb:175 | The `From:` header as written, `From: Automated <` then the sender then `)`, with the unbalanced `<` kept. |
| `Mail.HeadLines` | src/send-report.rb:174-195 | The fifteen heredoc lines before the encoded zip: the header heredoc's lines, then the text part's, then the attachment headers and the blank line. |
| `Mail.MailReport` | src/send-report.rb:201-206 | The message is submitted exactly when the sender's domain can be found. It then goes from the sender to `email`, carries the message text, and its HELO name is non-empty with no "@". Otherwise the call raises with the message of line 166 for the sender. |
| `Mail.ConfiguredSenderSends` | src/send-report.rb:203-206 | A configured one-line sender `local@domain` gets its report submitted: HELO `domain`, from the sender, to `email`, with the message text. |
| `Mail.PlaceholderSenderNeverSends` | src/send-report.rb:203-206 | With the shipped sender, `mailReport` raises before any message is sent, whatever the report. |
| `Options.Validate` | src/send-report.rb:72-75 | The run proceeds exactly when `report`, `email`, `name` and `subject` are all given, carrying their values. Otherwise it stops with exit status 1 after printing the usage, whose banner line is kept. |
| `Options.MissingOneFails` | src/send-report.rb:72-75 | Leaving out any one option stops the script, whatever else is given. |
| `Options.EmptyValuesAccepted` | src/send-report.rb:72 | Options given as empty strings still pass, since an empty string is true in Ruby. |
| `Text.SplitLines` | src/send-report.rb:89 | The lines `IO.readlines` gives (and `String#each` at line 139): each keeps its "\n", and a last line without one is kept as it is; the empty text has no lines. |
| `Text.SplitLinesConcat` | src/send-report.rb:89 | Splitting a file into lines loses nothing: joining them gives the text back. |
| `Text.SplitLinesAreLines` | src/send-report.rb:89 | Every line read is non-empty and has a newline only at its end. |
| `Text.SplitLinesEnds` | src/send-report.rb:89 | Every line but the last ends in a newline. |
| `Text.SplitLinesLast` | src/send-report.rb:139 | The last line ends in a newline exactly when the text does. |
| `Text.SplitLinesAppend` | src/send-report.rb:139 | A text made of whole lines, followed by more text, splits into its own lines and then those of the rest. |
| `Text.SplitWholeLines` | src/send-report.rb:89 | Whole lines joined split back into exactly those lines. |

## Left out

- The shell commands are not run. `s3cmd ls` is the parameter `ls`, a function from the prefix to the listing text. Whether each `s3cmd get`, `find | xargs cat` and `zip` succeeds is the parameter `ok`. What the commands do to the disk is not modelled.
- `Dir.mktmpdir` and `Dir.mkdir` are left out. The temporary directory is the parameter `tmp`. A failing `mkdir` is not modelled.
- The `puts` progress messages, the `-h` help option and `OptionParser`'s parsing of `ARGV` are not modelled. `Options.Validate` takes the parsed options as a map.
- Options.Validate: the stop carries only the banner line of the usage text, with `$0` taken as `send-report.rb`. The option summary lines that `puts optparse` prints after it (from lines 48-66) are not modelled.
- `File.read` of the zip and `pack("m")` are not modelled. The encoded attachment is the parameter `encoded`.
- `FROM_EMAIL` is the parameter `from` of `Mail.MailReport`, not a global constant. `Mail.PlaceholderSenderNeverSends` covers the value the script ships with.
- The SMTP session is not modelled: STARTTLS, login with `FROM_PASSWORD` and delivery. `Mail.MailReport` ends with the `Submission` that `send_message` is given, for a sender whose domain can be found.
- The order in which `find` lists the downloaded parts, and so the row order of the CSV, is not modelled.
- File existence, reading and writing are operations on a map from path to contents. Permissions, I/O errors and concurrent writers are not modelled.
- `S3Config.FileSystem.ConfigureS3Cmd`: the `NoMethodError` raised for nil credentials is an `Err` with a fixed message. The exact Ruby exception text is not modelled.
- The main program at lines 210-217 is modelled only through its parts: `S3Config.ConfiguredFromHadoop` joins lines 210 and 212, and `Mail.PlaceholderSenderNeverSends` covers line 217.
- `Listing.NormalizeOneLine`: its exact "/"-appending statement is proved for one-line prefixes only. For a multi-line prefix, `Listing.NormalizePrefix` states only that some line ends in "/".
- Mail.MailLines: the exact line layout is proved only when the sender, recipient, subject and name have no newline, and the encoded text is empty or ends in one. That covers what `pack("m")` yields: empty for an empty file, and otherwise ending in a newline.

=== FILE: credentials.dfy ===
/**
 * `getCredentials` (send-report.rb lines 81-105): find the AWS key and secret
 * in the Hadoop configuration. The two candidate files are visited in order,
 * a missing one is skipped, and each file is read line by line. Two slots,
 * `key` and `secret`, live across both files; each matching line overwrites
 * its slot, and the scan stops at the first line after which both are set.
 */
module Credentials {
  import opened Wrappers
  import opened Text
  import opened Tags

  const Hadoop := "/home/hadoop"
  const ConfDir := Hadoop + "/conf/"

  /** `core-site.xml` (Hadoop 0.20) is tried before `hadoop-site.xml` (Hadoop 0.18). */
  const CandidateFiles := ["core-site.xml", "hadoop-site.xml"]

  datatype Credentials = Credentials(key: string, secret: string)

  /** The two mutable slots of the scan; `None` is Ruby's `nil`. */
  datatype Slots = Slots(key: Option<string>, secret: Option<string>)

  const Empty := Slots(None, None)

  predicate Complete(s: Slots) {
    s.key.Some? && s.secret.Some?
  }

  function CredentialsOf(s: Slots): Credentials
    requires Complete(s)
  {
    Credentials(s.key.value, s.secret.value)
  }

  /** The lines of file `path`, as `IO.readlines` gives them; none when the file does not exist. */
  function FileLines(files: map<string, string>, path: string): seq<string> {
    if path in files then SplitLines(files[path]) else []
  }

  /** The lines of the candidate files `names`, in order, missing files contributing nothing. */
  function StreamOf(files: map<string, string>, names: seq<string>): seq<string> {
    if names == [] then [] else FileLines(files, ConfDir + names[0]) + StreamOf(files, names[1..])
  }

  /** Every configuration line the scan may read, in the order it reads them. */
  function Stream(files: map<string, string>): seq<string> {
    StreamOf(files, CandidateFiles)
  }

  /** What one line sets: `$1` of the secret pattern (line 90) and of the key pattern (line 93). */
  datatype LineMatch = LineMatch(secret: Option<string>, key: Option<string>)

  function ClassifyLine(line: string): LineMatch {
    LineMatch(Match(SecretOpen, line), Match(KeyOpen, line))
  }

  function Classify(lines: seq<string>): (ms: seq<LineMatch>)
    ensures |ms| == |lines|
    ensures forall i :: 0 <= i < |lines| ==> ms[i] == ClassifyLine(lines[i])
  {
    if lines == [] then [] else [ClassifyLine(lines[0])] + Classify(lines[1..])
  }

  /** One line of the scan: each pattern that matches overwrites its slot. */
  function Step(s: Slots, m: LineMatch): Slots {
    Slots(if m.key.Some? then m.key else s.key, if m.secret.Some? then m.secret else s.secret)
  }

  /** The slots after reading all of `ms`, starting from `s`. */
  function Run(s: Slots, ms: seq<LineMatch>): Slots
    decreases |ms|
  {
    if ms == [] then s else Run(Step(s, ms[0]), ms[1..])
  }

  /** The value of the scan: the slots just after the first line that completes them. */
  function ScanFrom(s: Slots, ms: seq<LineMatch>): Option<Credentials>
    decreases |ms|
  {
    if ms == [] then None
    else
      var next := Step(s, ms[0]);
      if Complete(next) then Some(CredentialsOf(next)) else ScanFrom(next, ms[1..])
  }

  /** What `getCredentials` returns for the file system `files`. */
  function Resolve(files: map<string, string>): Option<Credentials> {
    ScanFrom(Empty, Classify(Stream(files)))
  }

  lemma {:induction false} ClassifyAppend(xs: seq<string>, ys: seq<string>)
    ensures Classify(xs + ys) == Classify(xs) + Classify(ys)
  {
    if xs == [] {
      assert xs + ys == ys;
    } else {
      assert (xs + ys)[1..] == xs[1..] + ys;
      ClassifyAppend(xs[1..], ys);
    }
  }

  /** Reading one more line while the pair is still incomplete. */
  lemma ReadLine(read: seq<string>, line: string)
    requires ScanFrom(Empty, Classify(read)) == None
    ensures Run(Empty, Classify(read + [line])) == Step(Run(Empty, Classify(read)), ClassifyLine(line))
    ensures var next := Step(Run(Empty, Classify(read)), ClassifyLine(line));
      ScanFrom(Empty, Classify(read + [line])) == (if Complete(next) then Some(CredentialsOf(next)) else None)
  {
    var ms := Classify(read);
    var m := ClassifyLine(line);
    ClassifyAppend(read, [line]);
    assert Classify([line]) == [m];
    RunAppend(Empty, ms, [m]);
    ScanAppendNone(Empty, ms, [m]);
  }

  lemma SplitAt<T>(before: seq<T>, xs: seq<T>, k: nat)
    requires k <= |xs|
    ensures before + xs == (before + xs[..k]) + xs[k..]
  {
    assert xs == xs[..k] + xs[k..];
  }

  /** Returning early gives the scan's value on the whole file: what follows is never read. */
  lemma ReturnEarly(before: seq<string>, lines: seq<string>, j: nat)
    requires j < |lines|
    requires ScanFrom(Empty, Classify(before + lines[..j + 1])).Some?
    ensures ScanFrom(Empty, Classify(before + lines)) == ScanFrom(Empty, Classify(before + lines[..j + 1]))
  {
    SplitAt(before, lines, j + 1);
    FirstWins(before + lines[..j + 1], lines[j + 1..]);
  }

  /** First match wins, on configuration lines: once the pair is complete, later lines are never read. */
  lemma FirstWins(read: seq<string>, after: seq<string>)
    requires ScanFrom(Empty, Classify(read)).Some?
    ensures ScanFrom(Empty, Classify(read + after)) == ScanFrom(Empty, Classify(read))
  {
    ClassifyAppend(read, after);
    ScanAppendSome(Empty, Classify(read), Classify(after));
  }

  /**
   * `getCredentials` (lines 81-105): the outer loop over the candidate files.
   * A missing file is skipped; `ScanFile` is the inner loop over one file's
   * lines, and `found` is its early `return`.
   */
  method GetCredentials(files: map<string, string>) returns (r: Option<Credentials>)
    ensures r == Resolve(files)
  {
    var key: Option<string> := None;
    var secret: Option<string> := None;
    ghost var read: seq<string> := [];
    for i := 0 to |CandidateFiles|
      invariant Stream(files) == read + StreamOf(files, CandidateFiles[i..])
      invariant Slots(key, secret) == Run(Empty, Classify(read))
      invariant ScanFrom(Empty, Classify(read)) == None
    {
      assert CandidateFiles[i..][1..] == CandidateFiles[i + 1..];
      var path := ConfDir + CandidateFiles[i];
      ghost var rest := StreamOf(files, CandidateFiles[i + 1..]);
      if path in files {
        var lines := SplitLines(files[path]);
        assert Stream(files) == read + lines + rest;
        var found;
        key, secret, found := ScanFile(lines, key, secret, read);
        if found {
          r := Some(Credentials(key.value, secret.value));
          ScanAppendSome(Empty, Classify(read + lines), Classify(rest));
          ClassifyAppend(read + lines, rest);
          return;
        }
        read := read + lines;
      } else {
        assert Stream(files) == read + rest;
      }
    }
    assert Stream(files) == read;
    r := None;
  }

  /**
   * The inner loop of `getCredentials` over the lines of one file, continuing
   * from the slots left by the lines `read` before it. `found` says that the
   * pair was completed, and the slots then hold it.
   */
  method ScanFile(lines: seq<string>, key0: Option<string>, secret0: Option<string>, ghost read: seq<string>)
    returns (key: Option<string>, secret: Option<string>, found: bool)
    requires Slots(key0, secret0) == Run(Empty, Classify(read))
    requires ScanFrom(Empty, Classify(read)) == None
    ensures found <==> ScanFrom(Empty, Classify(read + lines)).Some?
    ensures found ==> key.Some? && secret.Some?
    ensures found ==> ScanFrom(Empty, Classify(read + lines)) == Some(Credentials(key.value, secret.value))
    ensures !found ==> Slots(key, secret) == Run(Empty, Classify(read + lines))
  {
    key, secret := key0, secret0;
    assert read + lines[..0] == read;
    for j := 0 to |lines|
      invariant Slots(key, secret) == Run(Empty, Classify(read + lines[..j]))
      invariant ScanFrom(Empty, Classify(read + lines[..j])) == None
    {
      var line := lines[j];
      assert read + lines[..j + 1] == (read + lines[..j]) + [line];
      var m := ClassifyLine(line);
      if m.secret.Some? {
        secret := m.secret;
      }
      if m.key.Some? {
        key := m.key;
      }
      ReadLine(read + lines[..j], line);
      if key.Some? && secret.Some? {
        ReturnEarly(read, lines, j);
        return key, secret, true;
      }
    }
    assert lines[..|lines|] == lines;
    found := false;
  }

  lemma {:induction false} RunAppend(s: Slots, xs: seq<LineMatch>, ys: seq<LineMatch>)
    ensures Run(s, xs + ys) == Run(Run(s, xs), ys)
    decreases |xs|
  {
    if xs == [] {
      assert xs + ys == ys;
    } else {
      assert (xs + ys)[1..] == xs[1..] + ys;
      RunAppend(Step(s, xs[0]), xs[1..], ys);
    }
  }

  /** While the pair is incomplete, scanning more ms continues from the slots reached so far. */
  lemma {:induction false} ScanAppendNone(s: Slots, xs: seq<LineMatch>, ys: seq<LineMatch>)
    requires ScanFrom(s, xs) == None
    ensures ScanFrom(s, xs + ys) == ScanFrom(Run(s, xs), ys)
    decreases |xs|
  {
    if xs == [] {
      assert xs + ys == ys;
    } else {
      assert (xs + ys)[1..] == xs[1..] + ys;
      ScanAppendNone(Step(s, xs[0]), xs[1..], ys);
    }
  }

  /** First match wins: once the pair is complete, nothing after it is read. */
  lemma {:induction false} ScanAppendSome(s: Slots, xs: seq<LineMatch>, ys: seq<LineMatch>)
    requires ScanFrom(s, xs).Some?
    ensures ScanFrom(s, xs + ys) == ScanFrom(s, xs)
    decreases |xs|
  {
    assert xs != [];
    assert (xs + ys)[0] == xs[0];
    assert (xs + ys)[1..] == xs[1..] + ys;
    if !Complete(Step(s, xs[0])) {
      ScanAppendSome(Step(s, xs[0]), xs[1..], ys);
    }
  }

  /** Reading the first `k` lines completes the pair, and no shorter prefix does. */
  ghost predicate FirstComplete(s: Slots, ms: seq<LineMatch>, k: nat) {
    && 1 <= k <= |ms|
    && Complete(Run(s, ms[..k]))
    && forall m :: 1 <= m < k ==> !Complete(Run(s, ms[..m]))
  }

  /** Some prefix of `ms` (at least one line long) completes the pair. */
  ghost predicate SomePrefixCompletes(s: Slots, ms: seq<LineMatch>) {
    exists k :: 1 <= k <= |ms| && Complete(Run(s, ms[..k]))
  }

  lemma RunPrefixShift(s: Slots, ms: seq<LineMatch>, k: nat)
    requires 1 <= k <= |ms|
    ensures Run(s, ms[..k]) == Run(Step(s, ms[0]), ms[1..][..k - 1])
  {
    assert ms[..k][1..] == ms[1..][..k - 1];
  }

  /** The scan finds a pair exactly when some prefix of the line stream completes both slots. */
  lemma {:induction false} ScanSomeIff(s: Slots, ms: seq<LineMatch>)
    ensures ScanFrom(s, ms).Some? <==> SomePrefixCompletes(s, ms)
    decreases |ms|
  {
    if ms != [] {
      var next := Step(s, ms[0]);
      var tail := ms[1..];
      RunPrefixShift(s, ms, 1);
      if !Complete(next) {
        ScanSomeIff(next, tail);
        if SomePrefixCompletes(s, ms) {
          var k :| 1 <= k <= |ms| && Complete(Run(s, ms[..k]));
          RunPrefixShift(s, ms, k);
          assert Complete(Run(next, tail[..k - 1]));
        }
        if SomePrefixCompletes(next, tail) {
          var k :| 1 <= k <= |tail| && Complete(Run(next, tail[..k]));
          RunPrefixShift(s, ms, k + 1);
          assert Complete(Run(s, ms[..k + 1]));
        }
      }
    }
  }

  /** The pair returned is the slots' value after the shortest completing prefix. */
  lemma {:induction false} ScanAtFirst(s: Slots, ms: seq<LineMatch>, k: nat)
    requires FirstComplete(s, ms, k)
    ensures ScanFrom(s, ms) == Some(CredentialsOf(Run(s, ms[..k])))
    decreases |ms|
  {
    var next := Step(s, ms[0]);
    var tail := ms[1..];
    RunPrefixShift(s, ms, 1);
    if k > 1 {
      assert !Complete(next);
      RunPrefixShift(s, ms, k);
      forall m | 1 <= m < k - 1 ensures !Complete(Run(next, tail[..m])) {
        RunPrefixShift(s, ms, m + 1);
      }
      ScanAtFirst(next, tail, k - 1);
    }
  }

  /** A non-nil result comes from a shortest completing prefix. */
  lemma {:induction false} ScanHasFirst(s: Slots, ms: seq<LineMatch>)
    requires ScanFrom(s, ms).Some?
    ensures exists k: nat :: FirstComplete(s, ms, k)
    decreases |ms|
  {
    var next := Step(s, ms[0]);
    var tail := ms[1..];
    RunPrefixShift(s, ms, 1);
    if Complete(next) {
      assert FirstComplete(s, ms, 1);
    } else {
      ScanHasFirst(next, tail);
      var k: nat :| FirstComplete(next, tail, k);
      RunPrefixShift(s, ms, k + 1);
      forall m | 1 <= m < k + 1 ensures !Complete(Run(s, ms[..m])) {
        if m > 1 {
          RunPrefixShift(s, ms, m);
        }
      }
      assert FirstComplete(s, ms, k + 1);
    }
  }

  const CorePath := ConfDir + "core-site.xml"
  const HadoopSitePath := ConfDir + "hadoop-site.xml"

  /** A value that a property line can carry and both patterns read back unambiguously. */
  predicate PlainValue(v: string) {
    Plain(v) && '<' !in v
  }

  lemma ClassifyKeyLine(v: string)
    requires PlainValue(v)
    ensures ClassifyLine(TagLine(KeyName, v)) == LineMatch(None, Some(v))
  {
    TagLineMatches(KeyName, v, "\n");
    TagLinesExclusive(v);
  }

  lemma ClassifySecretLine(v: string)
    requires PlainValue(v)
    ensures ClassifyLine(TagLine(SecretName, v)) == LineMatch(Some(v), None)
  {
    TagLineMatches(SecretName, v, "\n");
    TagLinesExclusive(v);
  }

  lemma TagLineIsLine(name: string, v: string)
    requires '\n' !in name && '\n' !in v
    ensures WholeLine(TagLine(name, v))
  {
    var x := OpenFor(name) + v + Close;
    assert '\n' !in x;
    assert TagLine(name, v) == x + "\n";
    LineWhole(x);
  }

  /**
   * Both orders of the two lines within one file give the same pair, and
   * whatever `hadoop-site.xml` holds is never read.
   */
  lemma OrderIndependent(files: map<string, string>, k: string, s: string)
    requires PlainValue(k) && PlainValue(s)
    requires CorePath in files
    requires files[CorePath] == TagLine(KeyName, k) + TagLine(SecretName, s)
          || files[CorePath] == TagLine(SecretName, s) + TagLine(KeyName, k)
    ensures Resolve(files) == Some(Credentials(k, s))
  {
    var kl, sl := TagLine(KeyName, k), TagLine(SecretName, s);
    KeyAndSecretLines(k, s);
    CoreHoldsPair(files, kl, sl, k, s);
  }

  /** The two property lines: whole lines, each read by its own pattern only. */
  lemma KeyAndSecretLines(k: string, s: string)
    requires PlainValue(k) && PlainValue(s)
    ensures PairLines(TagLine(KeyName, k), TagLine(SecretName, s), k, s)
  {
    KeyLineReads(k);
    SecretLineReads(s);
  }

  lemma KeyLineReads(k: string)
    requires PlainValue(k)
    ensures ReadsAs(TagLine(KeyName, k), LineMatch(None, Some(k)))
  {
    ClassifyKeyLine(k);
    TagLineIsLine(KeyName, k);
  }

  lemma SecretLineReads(s: string)
    requires PlainValue(s)
    ensures ReadsAs(TagLine(SecretName, s), LineMatch(Some(s), None))
  {
    ClassifySecretLine(s);
    TagLineIsLine(SecretName, s);
  }

  /** `l` is a whole line that the two patterns read as `m`. */
  predicate ReadsAs(l: string, m: LineMatch) {
    WholeLine(l) && ClassifyLine(l) == m
  }

  predicate PairLines(kl: string, sl: string, k: string, s: string) {
    ReadsAs(kl, LineMatch(None, Some(k))) && ReadsAs(sl, LineMatch(Some(s), None))
  }

  lemma CoreHoldsPair(files: map<string, string>, kl: string, sl: string, k: string, s: string)
    requires PairLines(kl, sl, k, s)
    requires CorePath in files && (files[CorePath] == kl + sl || files[CorePath] == sl + kl)
    ensures Resolve(files) == Some(Credentials(k, s))
  {
    EitherOrder(kl, sl, k, s);
    if files[CorePath] == kl + sl {
      WholePair(kl, sl);
    } else {
      WholePair(sl, kl);
    }
    CoreDecides(files, Credentials(k, s));
  }

  /** Two whole lines in one file read back as those two lines. */
  lemma WholePair(a: string, b: string)
    requires WholeLine(a) && WholeLine(b)
    ensures SplitLines(a + b) == [a, b]
  {
    ConcatPair(a, b);
    SplitWholeLines([a, b]);
  }

  /** A key line and a secret line complete the pair in either order. */
  lemma EitherOrder(kl: string, sl: string, k: string, s: string)
    requires ClassifyLine(kl) == LineMatch(None, Some(k)) && ClassifyLine(sl) == LineMatch(Some(s), None)
    ensures ScanFrom(Empty, Classify([kl, sl])) == Some(Credentials(k, s))
    ensures ScanFrom(Empty, Classify([sl, kl])) == Some(Credentials(k, s))
  {
    var km, sm := LineMatch(None, Some(k)), LineMatch(Some(s), None);
    ClassifyEach([kl, sl], [km, sm]);
    ClassifyEach([sl, kl], [sm, km]);
    KeyThenSecret(k, s);
    assert [km, sm][1..] == [sm] && [sm, km][1..] == [km];
  }

  lemma {:induction false} ClassifyEach(lines: seq<string>, ms: seq<LineMatch>)
    requires |lines| == |ms|
    requires forall i :: 0 <= i < |lines| ==> ClassifyLine(lines[i]) == ms[i]
    ensures Classify(lines) == ms
  {
    if lines != [] {
      ClassifyEach(lines[1..], ms[1..]);
    }
  }

  lemma ConcatPair(a: string, b: string)
    ensures Concat([a, b]) == a + b
  {
    assert [a, b][1..] == [b];
    assert [b][1..] == [];
    assert Concat([b]) == b + Concat([]);
  }

  /** The stream is `core-site.xml`'s lines, then `hadoop-site.xml`'s. */
  lemma StreamShape(files: map<string, string>)
    ensures Stream(files) == FileLines(files, CorePath) + FileLines(files, HadoopSitePath)
  {
    assert CandidateFiles[1..] == ["hadoop-site.xml"];
    assert CandidateFiles[1..][1..] == [];
    assert StreamOf(files, CandidateFiles[1..]) == FileLines(files, HadoopSitePath) + StreamOf(files, []);
  }

  /** A missing `core-site.xml` is skipped and `hadoop-site.xml` is used alone. */
  lemma MissingCoreSiteSkipped(files: map<string, string>)
    requires CorePath !in files
    ensures Resolve(files) == ScanFrom(Empty, Classify(FileLines(files, HadoopSitePath)))
  {
    StreamShape(files);
    assert Stream(files) == FileLines(files, HadoopSitePath);
  }

  /** With only `hadoop-site.xml` present and holding both lines, its pair is found. */
  lemma FallbackToHadoopSite(files: map<string, string>, k: string, s: string)
    requires PlainValue(k) && PlainValue(s)
    requires CorePath !in files && HadoopSitePath in files
    requires files[HadoopSitePath] == TagLine(KeyName, k) + TagLine(SecretName, s)
    ensures Resolve(files) == Some(Credentials(k, s))
  {
    var kl, sl := TagLine(KeyName, k), TagLine(SecretName, s);
    KeyAndSecretLines(k, s);
    HadoopSiteHoldsPair(files, kl, sl, k, s);
  }

  lemma HadoopSiteHoldsPair(files: map<string, string>, kl: string, sl: string, k: string, s: string)
    requires PairLines(kl, sl, k, s)
    requires CorePath !in files && HadoopSitePath in files && files[HadoopSitePath] == kl + sl
    ensures Resolve(files) == Some(Credentials(k, s))
  {
    EitherOrder(kl, sl, k, s);
    WholePair(kl, sl);
    MissingCoreSiteSkipped(files);
  }

  /** The slots outlive the file loop: a key from one file pairs with a secret from the other. */
  lemma PairAcrossFiles(files: map<string, string>, k: string, s: string)
    requires PlainValue(k) && PlainValue(s)
    requires CorePath in files && HadoopSitePath in files
    requires files[CorePath] == TagLine(KeyName, k) && files[HadoopSitePath] == TagLine(SecretName, s)
    ensures Resolve(files) == Some(Credentials(k, s))
  {
    var kl, sl := TagLine(KeyName, k), TagLine(SecretName, s);
    OneLineFile(KeyName, k);
    OneLineFile(SecretName, s);
    StreamShape(files);
    assert Stream(files) == [kl, sl];
    ClassifyKeyLine(k);
    ClassifySecretLine(s);
    ClassifyEach([kl, sl], [LineMatch(None, Some(k)), LineMatch(Some(s), None)]);
    KeyThenSecret(k, s);
  }

  /** A file holding one property line reads as that line. */
  lemma OneLineFile(name: string, v: string)
    requires '\n' !in name && '\n' !in v
    ensures SplitLines(TagLine(name, v)) == [TagLine(name, v)]
  {
    TagLineIsLine(name, v);
    SplitLinesCons(TagLine(name, v), "");
    assert TagLine(name, v) + "" == TagLine(name, v);
  }

  /** At the level of matches: a key, then a secret, yields that pair. */
  lemma KeyThenSecret(k: string, s: string)
    ensures ScanFrom(Empty, [LineMatch(None, Some(k)), LineMatch(Some(s), None)]) == Some(Credentials(k, s))
  {
    var ms := [LineMatch(None, Some(k)), LineMatch(Some(s), None)];
    assert ms[1..] == [LineMatch(Some(s), None)];
    assert ScanFrom(Slots(Some(k), None), ms[1..]) == Some(Credentials(k, s));
  }

  /** At the level of matches: key `k1`, then key `k2`, then a secret yields `k2`. */
  lemma KeyOverwrittenBeforeCompletion(k1: string, k2: string, s: string)
    ensures ScanFrom(Empty, [LineMatch(None, Some(k1)), LineMatch(None, Some(k2)), LineMatch(Some(s), None)])
         == Some(Credentials(k2, s))
  {
    var ms := [LineMatch(None, Some(k1)), LineMatch(None, Some(k2)), LineMatch(Some(s), None)];
    assert ms[1..][1..] == [LineMatch(Some(s), None)];
    assert ScanFrom(Slots(Some(k2), None), [LineMatch(Some(s), None)]) == Some(Credentials(k2, s));
    assert ScanFrom(Slots(Some(k1), None), ms[1..]) == Some(Credentials(k2, s));
  }

  /** Three whole lines, one after the other, split back into those three. */
  lemma ThreeLines(l1: string, l2: string, l3: string)
    requires WholeLine(l1) && WholeLine(l2) && WholeLine(l3)
    ensures SplitLines(l1 + l2 + l3) == [l1, l2, l3]
  {
    assert SplitLines(l3) == [l3] by {
      SplitLinesCons(l3, "");
      assert l3 + "" == l3;
    }
    assert SplitLines(l2 + l3) == [l2, l3] by {
      SplitLinesCons(l2, l3);
    }
    assert SplitLines(l1 + (l2 + l3)) == [l1, l2, l3] by {
      SplitLinesCons(l1, l2 + l3);
    }
    AppendAssoc(l1, l2, l3);
  }

  /** Once `core-site.xml` alone completes a pair, that pair is the result. */
  lemma CoreDecides(files: map<string, string>, c: Credentials)
    requires ScanFrom(Empty, Classify(FileLines(files, CorePath))) == Some(c)
    ensures Resolve(files) == Some(c)
  {
    StreamShape(files);
    FirstWins(FileLines(files, CorePath), FileLines(files, HadoopSitePath));
  }

  /** A second key line read before the pair is complete overwrites the first. */
  lemma LaterKeyOverwrites(files: map<string, string>, k1: string, k2: string, s: string)
    requires PlainValue(k1) && PlainValue(k2) && PlainValue(s)
    requires CorePath in files
    requires files[CorePath] == TagLine(KeyName, k1) + TagLine(KeyName, k2) + TagLine(SecretName, s)
    ensures Resolve(files) == Some(Credentials(k2, s))
  {
    KeyKeySecretFile(k1, k2, s);
    KeyOverwrittenBeforeCompletion(k1, k2, s);
    CoreDecides(files, Credentials(k2, s));
  }

  /** How the file of two key lines and a secret line reads, match by match. */
  lemma KeyKeySecretFile(k1: string, k2: string, s: string)
    requires PlainValue(k1) && PlainValue(k2) && PlainValue(s)
    ensures Classify(SplitLines(TagLine(KeyName, k1) + TagLine(KeyName, k2) + TagLine(SecretName, s)))
         == [LineMatch(None, Some(k1)), LineMatch(None, Some(k2)), LineMatch(Some(s), None)]
  {
    var l1, l2, l3 := TagLine(KeyName, k1), TagLine(KeyName, k2), TagLine(SecretName, s);
    TagLineIsLine(KeyName, k1);
    TagLineIsLine(KeyName, k2);
    TagLineIsLine(SecretName, s);
    ThreeLines(l1, l2, l3);
    ClassifyKeyKeySecret(k1, k2, s);
  }

  lemma ClassifyKeyKeySecret(k1: string, k2: string, s: string)
    requires PlainValue(k1) && PlainValue(k2) && PlainValue(s)
    ensures Classify([TagLine(KeyName, k1), TagLine(KeyName, k2), TagLine(SecretName, s)])
         == [LineMatch(None, Some(k1)), LineMatch(None, Some(k2)), LineMatch(Some(s), None)]
  {
    ClassifyKeyLine(k1);
    ClassifyKeyLine(k2);
    ClassifySecretLine(s);
    ClassifyThree(TagLine(KeyName, k1), TagLine(KeyName, k2), TagLine(SecretName, s),
                  LineMatch(None, Some(k1)), LineMatch(None, Some(k2)), LineMatch(Some(s), None));
  }

  lemma ClassifyThree(a: string, b: string, c: string, ma: LineMatch, mb: LineMatch, mc: LineMatch)
    requires ClassifyLine(a) == ma && ClassifyLine(b) == mb && ClassifyLine(c) == mc
    ensures Classify([a, b, c]) == [ma, mb, mc]
  {
    ClassifyEach([a, b, c], [ma, mb, mc]);
  }

  /** Without either configuration file there are no credentials. */
  lemma NoConfigNoCredentials(files: map<string, string>)
    requires CorePath !in files && HadoopSitePath !in files
    ensures Resolve(files) == None
  {
    StreamShape(files);
  }

  /** A value the patterns can capture: one or more characters, none of them "\n". */
  predicate Plain(v: string) {
    v != [] && '\n' !in v
  }

  predicate PlainSlot(o: Option<string>) {
    o.Some? ==> Plain(o.value)
  }

  lemma {:induction false} ClassifyPlain(lines: seq<string>)
    ensures forall i :: 0 <= i < |Classify(lines)| ==>
      PlainSlot(Classify(lines)[i].key) && PlainSlot(Classify(lines)[i].secret)
  {
    if lines != [] {
      ClassifyPlain(lines[1..]);
      var ms := Classify(lines);
      assert ms == [ClassifyLine(lines[0])] + Classify(lines[1..]);
      forall i | 0 <= i < |ms| ensures PlainSlot(ms[i].key) && PlainSlot(ms[i].secret) {
        if i > 0 {
          assert ms[i] == Classify(lines[1..])[i - 1];
        }
      }
    }
  }

  lemma {:induction false} ScanPlain(s: Slots, ms: seq<LineMatch>)
    requires PlainSlot(s.key) && PlainSlot(s.secret)
    requires forall i :: 0 <= i < |ms| ==> PlainSlot(ms[i].key) && PlainSlot(ms[i].secret)
    ensures ScanFrom(s, ms).Some? ==> Plain(ScanFrom(s, ms).value.key) && Plain(ScanFrom(s, ms).value.secret)
    decreases |ms|
  {
    if ms != [] {
      var next := Step(s, ms[0]);
      if !Complete(next) {
        ScanPlain(next, ms[1..]);
      }
    }
  }

  /** Credentials found in the configuration are non-empty single-line values. */
  lemma ResolvedPlain(files: map<string, string>)
    ensures Resolve(files).Some? ==> Plain(Resolve(files).value.key) && Plain(Resolve(files).value.secret)
  {
    ClassifyPlain(Stream(files));
    ScanPlain(Empty, Classify(Stream(files)));
  }
}

=== FILE: domain.dfy ===
/**
 * `getDomainFromAddress` (send-report.rb lines 161-167): the address is
 * matched against `^[^@]+@([^@]+)$` and the text after the "@" is returned;
 * otherwise the script raises. `^` and `$` are Ruby's line anchors and
 * `[^@]` also matches a newline.
 */
module Domain {
  import opened Wrappers
  import opened Text

  /** The sender address the script is shipped with (line 8). */
  const FromEmail := "FROM GMAIL ADDRESS HERE"

  /** The error message raised on a failed match (line 166). */
  function ErrorMessage(address: string): string {
    "Can't figure out domain from " + address + ". Is it a valid address?"
  }

  /**
   * The pattern matches from `s` (after `^`): `[^@]+` spans `[s, a)`, the
   * "@" is at `a`, `$1` spans `[a + 1, e)` and `$` holds at `e`.
   */
  predicate Accepts(address: string, s: nat, a: nat, e: nat) {
    && s < a && a + 1 < e <= |address|
    && Caret(address, s)
    && NoneIn(address, '@', s, a)
    && address[a] == '@'
    && NoneIn(address, '@', a + 1, e)
    && Dollar(address, e)
  }

  /** The greedy `([^@]+)$`: the largest end in `(lo, hi]` where `$` holds. */
  function LastDollar(address: string, lo: nat, hi: nat): (r: Option<nat>)
    requires hi <= |address|
    ensures r.Some? ==> lo < r.value <= hi && Dollar(address, r.value)
    ensures r.Some? ==> forall e: nat :: r.value < e <= hi ==> !Dollar(address, e)
    ensures r.None? ==> forall e: nat :: lo < e <= hi ==> !Dollar(address, e)
    decreases hi
  {
    if hi <= lo then None
    else if Dollar(address, hi) then Some(hi)
    else LastDollar(address, lo, hi - 1)
  }

  /**
   * The match from start `s`: `[^@]+` can only run up to the first "@", so
   * that "@" is the one used, and the capture then runs up to the next "@".
   */
  function MatchAt(address: string, s: nat): (r: Option<(nat, nat)>)
    requires s <= |address| && Caret(address, s)
    ensures r.Some? ==> Accepts(address, s, r.value.0, r.value.1)
    ensures r.Some? ==> forall a: nat, e: nat :: Accepts(address, s, a, e) ==> a == r.value.0 && e <= r.value.1
    ensures r.None? ==> forall a: nat, e: nat :: !Accepts(address, s, a, e)
  {
    var a := IndexFrom(address, '@', s);
    if a == s || a == |address| then None
    else
      match LastDollar(address, a + 1, IndexFrom(address, '@', a + 1))
      case Some(e) => Some((a, e))
      case None => None
  }

  /** `=~` tries the start positions from the left. */
  function SearchFrom(address: string, s: nat): (r: Option<(nat, nat, nat)>)
    requires s <= |address|
    ensures r.Some? ==> s <= r.value.0 && Accepts(address, r.value.0, r.value.1, r.value.2)
    ensures r.Some? ==> forall s': nat, a: nat, e: nat :: s <= s' < r.value.0 ==> !Accepts(address, s', a, e)
    ensures r.None? ==> forall s': nat, a: nat, e: nat :: s <= s' ==> !Accepts(address, s', a, e)
    decreases |address| - s
  {
    var here := if Caret(address, s) then MatchAt(address, s) else None;
    if here.Some? then Some((s, here.value.0, here.value.1))
    else if s == |address| then None
    else SearchFrom(address, s + 1)
  }

  /** `getDomainFromAddress`: `$1` on a match, the raised message otherwise. */
  function DomainFromAddress(address: string): (r: Result<string, string>)
    ensures r.Ok? ==> r.value != [] && '@' !in r.value
    ensures r.Err? ==> r.error == ErrorMessage(address)
  {
    match SearchFrom(address, 0)
    case None => Err(ErrorMessage(address))
    case Some(t) =>
      var d := address[t.1 + 1..t.2];
      assert forall k :: 0 <= k < |d| ==> d[k] == address[t.1 + 1 + k];
      Ok(d)
  }

  /** The address is `local@domain` with exactly one "@" and text on both sides. */
  predicate SplitsOnce(address: string, local: string, domain: string) {
    && local != [] && domain != []
    && '@' !in local && '@' !in domain
    && address == local + "@" + domain
  }

  /** On a one-line address a match can only be the whole address, split at its first "@". */
  lemma OneLineAccepts(address: string, s: nat, a: nat, e: nat)
    requires '\n' !in address && Accepts(address, s, a, e)
    ensures s == 0 && e == |address|
    ensures SplitsOnce(address, address[..a], address[a + 1..])
  {
    assert s == 0;
    assert e == |address|;
    var local, domain := address[..a], address[a + 1..];
    assert address == local + "@" + domain;
    assert forall k :: 0 <= k < |local| ==> local[k] == address[k];
    assert forall k :: 0 <= k < |domain| ==> domain[k] == address[a + 1 + k];
  }

  /**
   * For a one-line address the domain is found exactly when the address is
   * `local@domain` with a single "@" and text on both sides, and it is then
   * that `domain`.
   */
  lemma DomainOneLine(address: string)
    requires '\n' !in address
    ensures var r := DomainFromAddress(address);
      r.Ok? ==> SplitsOnce(address, address[..|address| - |r.value| - 1], r.value)
    ensures forall local, domain :: SplitsOnce(address, local, domain) ==> DomainFromAddress(address) == Ok(domain)
  {
    var t := SearchFrom(address, 0);
    if t.Some? {
      OneLineAccepts(address, t.value.0, t.value.1, t.value.2);
    }
    forall local, domain | SplitsOnce(address, local, domain)
      ensures DomainFromAddress(address) == Ok(domain)
    {
      DomainOfSplit(address, local, domain);
    }
  }

  lemma DomainOfSplit(address: string, local: string, domain: string)
    requires '\n' !in address && SplitsOnce(address, local, domain)
    ensures DomainFromAddress(address) == Ok(domain)
  {
    var a := |local|;
    assert address[a] == '@';
    assert forall k :: 0 <= k < a ==> address[k] == local[k];
    assert forall k :: a + 1 <= k < |address| ==> address[k] == domain[k - a - 1];
    assert Accepts(address, 0, a, |address|);
    var u := SearchFrom(address, 0).value;
    OneLineAccepts(address, u.0, u.1, u.2);
    assert forall k :: 0 <= k < a ==> address[k] != '@';
    assert address[u.1] == '@';
    assert u.1 == a && u.2 == |address|;
    assert address[a + 1..] == domain by {
      assert address == (local + "@") + domain && |local + "@"| == a + 1;
    }
    assert address[u.1 + 1..u.2] == domain;
    assert DomainFromAddress(address) == Ok(address[u.1 + 1..u.2]);
  }

  /** The shipped placeholder sender has no "@", so the script raises before any mail is sent. */
  lemma PlaceholderSenderFails()
    ensures DomainFromAddress(FromEmail) == Err(ErrorMessage(FromEmail))
  {
    assert forall k :: 0 <= k < |FromEmail| ==> FromEmail[k] != '@';
    var t := SearchFrom(FromEmail, 0);
  }

  /**
   * Because the anchors are line anchors, an address spanning two lines is
   * accepted on its first line alone, although it holds two "@".
   */
  lemma MultiLineAddress()
    ensures DomainFromAddress("a@b\nc@d") == Ok("b")
  {
    var address := "a@b\nc@d";
    assert IndexFrom(address, '@', 0) == 1;
    assert IndexFrom(address, '@', 2) == 5;
    assert !Dollar(address, 5) && !Dollar(address, 4) && Dollar(address, 3);
    assert LastDollar(address, 2, 5) == Some(3);
    assert SearchFrom(address, 0) == Some((0, 1, 3));
    assert address[2..3] == "b";
  }
}

=== FILE: listing.dfy ===
/**
 * The two text rules of `prepareReport` (send-report.rb lines 133-147) that
 * need no shell: the report prefix gets a trailing "/" unless it matches
 * `/^.*\/$/`, and every line of the `s3cmd ls` output is matched against
 *
 *   ^.*(s3:\/\/.*?([^\/]+))\n$
 *
 * giving `part` ($1, the object's URL) and `file` ($2, its last segment).
 * As in Ruby, `^` and `$` are line anchors, `.` matches anything but a
 * newline and `[^\/]` anything but a slash, a newline included.
 */
module Listing {
  import opened Wrappers
  import opened Text

  const Scheme := "s3://"

  predicate SchemeAt(s: string, p: nat) {
    p + |Scheme| <= |s| && s[p..p + |Scheme|] == Scheme
  }

  lemma SchemeChars(s: string, p: nat)
    requires SchemeAt(s, p)
    ensures s[p + 3] == '/' && s[p + 4] == '/'
  {
    assert s[p + 3] == s[p..p + |Scheme|][3];
    assert s[p + 4] == s[p..p + |Scheme|][4];
  }

  // ---------------------------------------------------------------------
  // Prefix normalisation (lines 133-135)
  // ---------------------------------------------------------------------

  /** `s.match(/^.*\/$/)`: some line of `s` ends in "/". */
  predicate LineEndsInSlash(s: string) {
    exists i :: 0 <= i < |s| && s[i] == '/' && Dollar(s, i + 1)
  }

  /** The listed prefix: a "/" is appended unless a line already ends in one. */
  function NormalizePrefix(s: string): (r: string)
    ensures LineEndsInSlash(r)
    ensures StartsWith(r, s) && |r| <= |s| + 1
  {
    if LineEndsInSlash(s) then s
    else
      var r := s + "/";
      assert r[|s|] == '/' && Dollar(r, |s| + 1);
      r
  }

  /** For a one-line prefix (the usual case): the result ends in "/", and a "/" is added exactly when missing. */
  lemma NormalizeOneLine(s: string)
    requires '\n' !in s
    ensures EndsWith(NormalizePrefix(s), "/")
    ensures EndsWith(s, "/") ==> NormalizePrefix(s) == s
    ensures !EndsWith(s, "/") ==> NormalizePrefix(s) == s + "/"
  {
    var r := NormalizePrefix(s);
    SlashAtEndIsLineEnd(s);
    if LineEndsInSlash(s) {
      var i :| 0 <= i < |s| && s[i] == '/' && Dollar(s, i + 1);
      assert i + 1 == |s|;
      assert s[|s| - 1..] == "/";
    } else {
      assert r[|r| - 1..] == "/";
    }
  }

  lemma SlashAtEndIsLineEnd(s: string)
    ensures EndsWith(s, "/") ==> LineEndsInSlash(s)
  {
    if EndsWith(s, "/") {
      assert s[|s| - 1] == s[|s| - 1..][0];
      assert Dollar(s, |s|);
    }
  }

  /** Normalising twice changes nothing more. */
  lemma NormalizeIdempotent(s: string)
    ensures NormalizePrefix(NormalizePrefix(s)) == NormalizePrefix(s)
  {
  }

  // ---------------------------------------------------------------------
  // The listing-line pattern (line 140)
  // ---------------------------------------------------------------------

  /**
   * The pattern matches `line` from position 0 with `s3://` at `p`, `$2`
   * spanning `[q, e)` and the "\n" at `e`; `$1` spans `[p, e)`.
   */
  predicate Accepts(line: string, p: nat, q: nat, e: nat) {
    && p + |Scheme| <= q < e < |line|
    && NoneIn(line, '\n', 0, p)
    && SchemeAt(line, p)
    && NoneIn(line, '\n', p + |Scheme|, q)
    && NoneIn(line, '/', q, e)
    && line[e] == '\n'
    && Dollar(line, e + 1)
  }

  /** `\n$` after a `[^\/]+` starting at `q`: the largest end in `(q, hi]`, as the greedy group backs off. */
  function LastEnd(line: string, q: nat, hi: nat): (r: Option<nat>)
    requires hi < |line|
    ensures r.Some? ==> q < r.value <= hi && line[r.value] == '\n' && Dollar(line, r.value + 1)
    ensures forall e: nat :: (if r.Some? then r.value else q) < e <= hi ==> !(line[e] == '\n' && Dollar(line, e + 1))
    decreases hi
  {
    if hi <= q then None
    else if line[hi] == '\n' && Dollar(line, hi + 1) then Some(hi)
    else LastEnd(line, q, hi - 1)
  }

  /** The lazy `.*?` after `s3://` at `p`: `$2` is tried from `q` onwards, shortest `.*?` first. */
  function LazyFrom(line: string, p: nat, q: nat): (r: Option<(nat, nat)>)
    requires p + |Scheme| <= q <= |line|
    requires NoneIn(line, '\n', 0, p) && SchemeAt(line, p) && NoneIn(line, '\n', p + |Scheme|, q)
    ensures r.Some? ==> q <= r.value.0 && Accepts(line, p, r.value.0, r.value.1)
    decreases |line| - q
  {
    if q + 1 >= |line| then None
    else
      var slash := IndexFrom(line, '/', q);
      var hi := if slash < |line| then slash else |line| - 1;
      match LastEnd(line, q, hi)
      case Some(e) => Some((q, e))
      case None => if line[q] == '\n' then None else LazyFrom(line, p, q + 1)
  }

  /** The lazy search gives the shortest `.*?` that leads to a match, and then the longest `$2`. */
  lemma {:induction false} LazyFromFirst(line: string, p: nat, q: nat)
    requires p + |Scheme| <= q <= |line|
    requires NoneIn(line, '\n', 0, p) && SchemeAt(line, p) && NoneIn(line, '\n', p + |Scheme|, q)
    ensures var r := LazyFrom(line, p, q);
      r.Some? ==> forall e: nat :: r.value.1 < e ==> !Accepts(line, p, r.value.0, e)
    ensures var r := LazyFrom(line, p, q);
      forall q': nat, e: nat :: q <= q' && (r.None? || q' < r.value.0) ==> !Accepts(line, p, q', e)
    decreases |line| - q
  {
    if q + 1 < |line| {
      var slash := IndexFrom(line, '/', q);
      var hi := if slash < |line| then slash else |line| - 1;
      if LastEnd(line, q, hi).None? && line[q] != '\n' {
        LazyFromFirst(line, p, q + 1);
      }
    }
  }

  /** The greedy `^.*`: the position of `s3://` is tried from `p` down to 0. */
  function GreedyFrom(line: string, p: nat): (r: Option<(nat, nat, nat)>)
    requires p <= |line| && NoneIn(line, '\n', 0, p)
    ensures r.Some? ==> r.value.0 <= p && Accepts(line, r.value.0, r.value.1, r.value.2)
    decreases p
  {
    var here := if SchemeAt(line, p) then LazyFrom(line, p, p + |Scheme|) else None;
    if here.Some? then Some((p, here.value.0, here.value.1))
    else if p == 0 then None
    else GreedyFrom(line, p - 1)
  }

  /**
   * The greedy search gives the match the regex engine reports: the
   * rightmost `s3://`, then the shortest `.*?`, then the longest `$2`.
   */
  lemma {:induction false} GreedyFromFirst(line: string, p: nat)
    requires p <= |line| && NoneIn(line, '\n', 0, p)
    ensures var r := GreedyFrom(line, p);
      r.Some? ==> forall p': nat, q: nat, e: nat :: r.value.0 < p' <= p ==> !Accepts(line, p', q, e)
    ensures var r := GreedyFrom(line, p);
      r.Some? ==> forall q: nat, e: nat :: q < r.value.1 ==> !Accepts(line, r.value.0, q, e)
    ensures var r := GreedyFrom(line, p);
      r.Some? ==> forall e: nat :: r.value.2 < e ==> !Accepts(line, r.value.0, r.value.1, e)
    decreases p
  {
    if SchemeAt(line, p) {
      LazyFromFirst(line, p, p + |Scheme|);
    }
    if p > 0 && GreedyFrom(line, p).Some? && GreedyFrom(line, p).value.0 < p {
      GreedyFromFirst(line, p - 1);
    }
  }

  /** The greedy search finds no match only when there is none. */
  lemma {:induction false} GreedyFromNone(line: string, p: nat)
    requires p <= |line| && NoneIn(line, '\n', 0, p)
    ensures GreedyFrom(line, p).None? ==> forall p': nat, q: nat, e: nat :: p' <= p ==> !Accepts(line, p', q, e)
    decreases p
  {
    if SchemeAt(line, p) {
      LazyFromFirst(line, p, p + |Scheme|);
    }
    if p > 0 && GreedyFrom(line, p).None? {
      GreedyFromNone(line, p - 1);
    }
  }

  /** One object of the listing: its URL (`part`) and its name (`file`). */
  datatype Entry = Entry(part: string, file: string)

  /**
   * `obj =~ /^.*(s3:\/\/.*?([^\/]+))\n$/` on one line of the listing, giving
   * `$1` and `$2`. In such a line `^` holds only at 0 and after its final
   * "\n", where nothing is left to match, so only start 0 is tried.
   */
  function ParseLine(line: string): (r: Option<Entry>)
    requires IsLine(line)
    ensures r.Some? ==> StartsWith(r.value.part, Scheme) && EndsWith(r.value.part, r.value.file)
    ensures r.Some? ==> r.value.file != [] && '/' !in r.value.file
    ensures r.Some? ==> EndsWith(line, r.value.part + "\n")
  {
    var p0 := IndexFrom(line, '\n', 0);
    match GreedyFrom(line, p0)
    case None => None
    case Some(t) =>
      var part, file := line[t.0..t.2], line[t.1..t.2];
      assert part[..|Scheme|] == line[t.0..t.0 + |Scheme|];
      assert part[|part| - |file|..] == file;
      assert line[|line| - |part + "\n"|..] == part + "\n" by {
        assert t.2 + 1 == |line|;
      }
      assert '/' !in file by {
        forall k | 0 <= k < |file| ensures file[k] != '/' {
          assert file[k] == line[t.1 + k];
        }
      }
      Some(Entry(part, file))
  }

  /** In a line, an accepted match always ends at the line's final "\n". */
  lemma AcceptsAtEnd(line: string, p: nat, q: nat, e: nat)
    requires IsLine(line) && Accepts(line, p, q, e)
    ensures e == |line| - 1
  {
  }

  /** Every match has `p` at most where the greedy `.*` starts from. */
  lemma AcceptsBeforeNewline(line: string, p: nat, q: nat, e: nat)
    requires Accepts(line, p, q, e)
    ensures p <= IndexFrom(line, '\n', 0)
  {
    var p0 := IndexFrom(line, '\n', 0);
    if p0 < |line| {
      assert line[p0] == '\n';
    }
  }

  /** The line lists an object: it ends in "\n", names an `s3://` URL and does not end in "/". */
  ghost predicate ListsObject(line: string) {
    && 2 <= |line| && line[|line| - 1] == '\n' && line[|line| - 2] != '/'
    && exists p: nat :: p + |Scheme| < |line| && SchemeAt(line, p)
  }

  /** Index of the last `c` in `s[..hi]`, if any. */
  function LastIndex(s: string, c: char, hi: nat): (r: Option<nat>)
    requires hi <= |s|
    ensures r.Some? ==> r.value < hi && s[r.value] == c
    ensures forall k :: (if r.Some? then r.value + 1 else 0) <= k < hi ==> s[k] != c
  {
    if hi == 0 then None else if s[hi - 1] == c then Some(hi - 1) else LastIndex(s, c, hi - 1)
  }

  /** A listing line is kept exactly when it lists an object; directory entries ending in "/" are skipped. */
  lemma ParseLineIff(line: string)
    requires IsLine(line)
    ensures ParseLine(line).Some? <==> ListsObject(line)
  {
    var p0 := IndexFrom(line, '\n', 0);
    var r := GreedyFrom(line, p0);
    GreedyFromNone(line, p0);
    if r.Some? {
      var t := r.value;
      AcceptsAtEnd(line, t.0, t.1, t.2);
      assert line[|line| - 2] != '/';
      assert SchemeAt(line, t.0);
    }
    if ListsObject(line) {
      var p: nat :| p + |Scheme| < |line| && SchemeAt(line, p);
      var e := |line| - 1;
      SchemeChars(line, p);
      var last := LastIndex(line, '/', e);
      assert line[p + 4] == '/';
      assert last.Some?;
      var q := last.value + 1;
      assert p + |Scheme| <= q < e;
      assert Accepts(line, p, q, e);
      AcceptsBeforeNewline(line, p, q, e);
    }
  }

  /** `file` is the whole last segment: the character before it in `part` is "/". */
  lemma ParseLineLastSegment(line: string)
    requires IsLine(line) && ParseLine(line).Some?
    ensures var en := ParseLine(line).value;
      |en.file| < |en.part| && en.part[|en.part| - |en.file| - 1] == '/'
  {
    var p0 := IndexFrom(line, '\n', 0);
    var t := GreedyFrom(line, p0).value;
    GreedyFromFirst(line, p0);
    var p, q, e := t.0, t.1, t.2;
    SchemeChars(line, p);
    if q > p + |Scheme| && line[q - 1] != '/' {
      assert Accepts(line, p, q - 1, e);
    }
    assert line[q - 1] == '/';
    assert line[p..e][q - 1 - p] == line[q - 1];
  }

  /** `part` starts at the last `s3://` of the line: no other one occurs inside it. */
  lemma ParseLineLastScheme(line: string)
    requires IsLine(line) && ParseLine(line).Some?
    ensures var en := ParseLine(line).value;
      forall i :: 0 < i < |en.part| ==> !SchemeAt(en.part, i)
  {
    var p0 := IndexFrom(line, '\n', 0);
    var t := GreedyFrom(line, p0).value;
    GreedyFromFirst(line, p0);
    var p, q, e := t.0, t.1, t.2;
    var part := line[p..e];
    forall i | 0 < i < |part| ensures !SchemeAt(part, i) {
      if SchemeAt(part, i) {
        LaterScheme(line, p, q, e, i);
      }
    }
  }

  /** An `s3://` inside `$1` would itself start a match, further right. */
  lemma LaterScheme(line: string, p: nat, q: nat, e: nat, i: nat)
    requires Accepts(line, p, q, e) && 0 < i < e - p && SchemeAt(line[p..e], i)
    ensures Accepts(line, p + i, q, e) && p + i <= IndexFrom(line, '\n', 0)
  {
    var p' := p + i;
    var here, inPart := line[p'..p' + |Scheme|], line[p..e][i..i + |Scheme|];
    assert forall k :: 0 <= k < |Scheme| ==> here[k] == inPart[k];
    assert here == inPart;
    SchemeChars(line, p');
    assert q >= p' + |Scheme|;
    AcceptsBeforeNewline(line, p', q, e);
  }
}

=== FILE: mail.dfy ===
/**
 * The message text `mailReport` sends (send-report.rb lines 172-201): three
 * heredocs, `header + msg + attach`, around the boundary marker
 * `1234_REPORT_MARKER`. A heredoc is its lines joined; the base64 text of
 * the zip, interpolated into the third one, is a parameter.
 *
 * The text is kept as the script writes it: the `From:` line closes its
 * `<` with `)`, no blank line separates the headers from the first
 * delimiter, and the attachment is labelled `multipart/mixed`.
 *
 * The sender `FROM_EMAIL` is a constant the user is told to edit (lines
 * 8 and 19-20), so it is a parameter `from` here; `Domain.FromEmail` is
 * the value the script ships with.
 */
module Mail {
  import opened Wrappers
  import opened Text
  import Domain

  const Marker := "1234_REPORT_MARKER"

  /** A heredoc line: its text and the newline that ends it. */
  function Line(text: string): string { text + "\n" }

  const BlankLine := Line("")

  /** The delimiter line before each part, and the closing one after the last. */
  const Delimiter := Line("--" + Marker)
  const CloseDelimiter := Line("--" + Marker + "--")

  const MimeVersion := Line("MIME-Version: 1.0")
  const MixedType := "Content-Type: multipart/" + "mixed; "
  const BoundaryHeader := Line(MixedType + "boundary=" + Marker)
  const TextType := Line("Content-Type: text/plain")
  const EightBit := Line("Content-Transfer-" + "Encoding: 8bit")
  const Base64 := Line("Content-Transfer-" + "Encoding:base64")
  const Disposition := "Content-Disposition: " + "attachment; "

  function FromLine(from: string): string { Line("From: Automated <" + from + ")") }
  function ToLine(email: string): string { Line("To: " + email) }
  function SubjectLine(subject: string): string { Line("Subject: " + subject) }
  function AttachedLine(name: string): string { Line(name + " attached.") }
  function AttachTypeLine(name: string): string { Line(MixedType + "name=\"" + name + ".zip\"") }
  function FilenameLine(name: string): string { Line(Disposition + "filename=\"" + name + ".zip\"") }

  /** The lines of the first heredoc (lines 174-181). */
  function HeaderLines(from: string, email: string, subject: string): seq<string> {
    [FromLine(from), ToLine(email), SubjectLine(subject), MimeVersion, BoundaryHeader, Delimiter]
  }

  /** The lines of the second heredoc (lines 183-189): the text part. */
  function MsgLines(name: string): seq<string> {
    [TextType, EightBit, BlankLine, AttachedLine(name), Delimiter]
  }

  /** The lines of the third heredoc (lines 191-195) before the encoded zip. */
  function AttachLines(name: string): seq<string> {
    [AttachTypeLine(name), Base64, FilenameLine(name), BlankLine]
  }

  /** The third heredoc: the attachment part and the closing delimiter (lines 191-198). */
  function Attach(name: string, encoded: string): string {
    Concat(AttachLines(name)) + encoded + "\n" + CloseDelimiter
  }

  /**
   * `mailtext = header + msg + attach` (line 201). Whatever the inputs, the
   * message opens with the sender line and ends with the closing delimiter.
   */
  function MailText(from: string, email: string, subject: string, name: string, encoded: string): (r: string)
    ensures StartsWith(r, FromLine(from))
    ensures EndsWith(r, CloseDelimiter)
  {
    var hs := HeaderLines(from, email, subject);
    assert Concat(hs) == FromLine(from) + Concat(hs[1..]);
    var msg, at := Concat(MsgLines(name)), Concat(AttachLines(name)) + encoded + "\n";
    Bracketed(FromLine(from), Concat(hs[1..]), msg, at, CloseDelimiter);
    Concat(hs) + msg + (at + CloseDelimiter)
  }

  /** A text starts with its first piece and ends with its last. */
  lemma Bracketed(a: string, b: string, c: string, d: string, e: string)
    ensures StartsWith(a + b + c + (d + e), a)
    ensures EndsWith(a + b + c + (d + e), e)
  {
    var t := a + b + c + (d + e);
    assert t == a + (b + c + d + e);
    assert t == (a + b + c + d) + e;
  }

  lemma HeaderTextsOneLine(from: string, email: string, subject: string)
    requires '\n' !in from && '\n' !in email && '\n' !in subject
    ensures '\n' !in "From: Automated <" + from + ")"
    ensures '\n' !in "To: " + email && '\n' !in "Subject: " + subject
    ensures '\n' !in "MIME-Version: 1.0" && '\n' !in MixedType + "boundary=" + Marker
  {
    assert '\n' !in "From: Automated <";
    MarkerOneLine();
  }

  lemma MarkerOneLine()
    ensures '\n' !in Marker && '\n' !in MixedType
  {
    assert '\n' !in "Content-Type: multipart/";
  }

  lemma PartTextsOneLine(name: string)
    requires '\n' !in name
    ensures '\n' !in "Content-Type: text/plain" && '\n' !in "Content-Transfer-" + "Encoding: 8bit"
    ensures '\n' !in "Content-Transfer-" + "Encoding:base64" && '\n' !in name + " attached."
  {
  }

  lemma AttachTextsOneLine(name: string)
    requires '\n' !in name
    ensures '\n' !in MixedType + "name=\"" + name + ".zip\""
    ensures '\n' !in Disposition + "filename=\"" + name + ".zip\""
  {
    MarkerOneLine();
    assert '\n' !in "Content-Disposition: " && '\n' !in "attachment; ";
  }

  lemma DelimitersWhole()
    ensures WholeLine(Delimiter) && WholeLine(CloseDelimiter) && WholeLine(BlankLine)
  {
    MarkerOneLine();
    LineWhole("--" + Marker);
    LineWhole("--" + Marker + "--");
    LineWhole("");
  }

  predicate AllWhole(ls: seq<string>) {
    forall i :: 0 <= i < |ls| ==> WholeLine(ls[i])
  }

  lemma HeaderLinesWhole(from: string, email: string, subject: string)
    requires '\n' !in from && '\n' !in email && '\n' !in subject
    ensures AllWhole(HeaderLines(from, email, subject))
  {
    HeaderTextsOneLine(from, email, subject);
    LineWhole("From: Automated <" + from + ")");
    LineWhole("To: " + email);
    LineWhole("Subject: " + subject);
    LineWhole("MIME-Version: 1.0");
    LineWhole(MixedType + "boundary=" + Marker);
    DelimitersWhole();
  }

  lemma MsgLinesWhole(name: string)
    requires '\n' !in name
    ensures AllWhole(MsgLines(name))
  {
    PartTextsOneLine(name);
    LineWhole("Content-Type: text/plain");
    LineWhole("Content-Transfer-" + "Encoding: 8bit");
    LineWhole(name + " attached.");
    DelimitersWhole();
  }

  lemma AttachLinesWhole(name: string)
    requires '\n' !in name
    ensures AllWhole(AttachLines(name))
  {
    PartTextsOneLine(name);
    AttachTextsOneLine(name);
    LineWhole(MixedType + "name=\"" + name + ".zip\"");
    LineWhole("Content-Transfer-" + "Encoding:base64");
    LineWhole(Disposition + "filename=\"" + name + ".zip\"");
    DelimitersWhole();
  }

  lemma AllWholeAppend(a: seq<string>, b: seq<string>)
    requires AllWhole(a) && AllWhole(b)
    ensures AllWhole(a + b)
  {
    forall i | 0 <= i < |a + b| ensures WholeLine((a + b)[i]) {
      if i >= |a| {
        assert (a + b)[i] == b[i - |a|];
      }
    }
  }

  lemma Regroup(a: string, b: string, c: string, d: string, e: string, f: string)
    ensures a + b + (c + d + e + f) == (a + b + c) + (d + (e + f))
  {
  }

  /** Whole lines, then a text of whole lines, a blank line and one more whole line. */
  lemma LayoutJoined(ls: seq<string>, encoded: string, close: string)
    requires AllWhole(ls)
    requires encoded == [] || encoded[|encoded| - 1] == '\n'
    requires WholeLine(close)
    ensures SplitLines(Concat(ls) + (encoded + ("\n" + close))) == ls + SplitLines(encoded) + ["\n", close]
  {
    var tail := "\n" + close;
    assert SplitLines(Concat(ls) + (encoded + tail)) == ls + SplitLines(encoded + tail) by {
      SplitLinesThen(ls, encoded + tail);
    }
    assert SplitLines(encoded + tail) == SplitLines(encoded) + SplitLines(tail) by {
      SplitLinesAppend(encoded, tail);
    }
    assert SplitLines(tail) == ["\n", close] by {
      SplitLinesCons(close, "");
      assert close + "" == close;
      SplitLinesCons("\n", close);
    }
    AppendAssoc(ls, SplitLines(encoded), ["\n", close]);
  }

  /** The same for three runs of whole lines in front. */
  lemma Layout(hs: seq<string>, ms: seq<string>, ats: seq<string>, encoded: string, close: string)
    requires AllWhole(hs) && AllWhole(ms) && AllWhole(ats)
    requires encoded == [] || encoded[|encoded| - 1] == '\n'
    requires WholeLine(close)
    ensures SplitLines(Concat(hs) + Concat(ms) + (Concat(ats) + encoded + "\n" + close))
         == hs + ms + ats + SplitLines(encoded) + ["\n", close]
  {
    AllWholeAppend(hs, ms);
    AllWholeAppend(hs + ms, ats);
    ConcatAppend(hs, ms);
    ConcatAppend(hs + ms, ats);
    Regroup(Concat(hs), Concat(ms), Concat(ats), encoded, "\n", close);
    LayoutJoined(hs + ms + ats, encoded, close);
  }

  /** The fifteen lines before the encoded zip. */
  function HeadLines(from: string, email: string, subject: string, name: string): seq<string> {
    HeaderLines(from, email, subject) + MsgLines(name) + AttachLines(name)
  }

  /**
   * Read back line by line, the message is: the six header lines ending in
   * the first delimiter, the five lines of the text part ending in the
   * second, the four attachment headers with their blank line, the lines of
   * the encoded zip, a blank line and the closing delimiter.
   */
  lemma MailLines(from: string, email: string, subject: string, name: string, encoded: string)
    requires '\n' !in from && '\n' !in email && '\n' !in subject && '\n' !in name
    requires encoded == [] || encoded[|encoded| - 1] == '\n'
    ensures SplitLines(MailText(from, email, subject, name, encoded))
         == HeadLines(from, email, subject, name) + SplitLines(encoded) + ["\n", CloseDelimiter]
  {
    HeaderLinesWhole(from, email, subject);
    MsgLinesWhole(name);
    AttachLinesWhole(name);
    DelimitersWhole();
    Layout(HeaderLines(from, email, subject), MsgLines(name), AttachLines(name), encoded, CloseDelimiter);
  }

  /**
   * The first blank line of the message, where its header block ends, is
   * line 8: the first delimiter and the text part's own headers fall inside
   * the message headers.
   */
  lemma FirstBlankLine(from: string, email: string, subject: string, name: string)
    ensures var ls := HeadLines(from, email, subject, name);
      ls[8] == "\n" && forall i :: 0 <= i < 8 ==> ls[i] != "\n"
  {
    var ls := HeadLines(from, email, subject, name);
    assert |FromLine(from)| > 1 && |MimeVersion| > 1 && |BoundaryHeader| > 1 && |Delimiter| > 1;
    assert |TextType| > 1 && |EightBit| > 1 && |ToLine(email)| > 1 && |SubjectLine(subject)| > 1;
  }

  /** What the SMTP session is given: the HELO domain, the sender, the recipient and the text. */
  datatype Submission = Submission(helo: string, from: string, to: string, text: string)

  /**
   * `mailReport` once the zip is encoded (lines 201-206): the HELO domain is
   * taken from the sender address before anything is sent, and a sender it
   * cannot split raises. Otherwise the message goes from `from` to `email`,
   * announced under a HELO name with no "@" in it.
   */
  function MailReport(from: string, encoded: string, name: string, subject: string, email: string)
    : (r: Result<Submission, string>)
    ensures r.Ok? <==> Domain.DomainFromAddress(from).Ok?
    ensures r.Err? ==> r.error == Domain.ErrorMessage(from)
    ensures r.Ok? ==> r.value.helo != [] && '@' !in r.value.helo
    ensures r.Ok? ==> r.value.from == from && r.value.to == email
    ensures r.Ok? ==> r.value.text == MailText(from, email, subject, name, encoded)
  {
    match Domain.DomainFromAddress(from)
    case Err(e) => Err(e)
    case Ok(d) => Ok(Submission(d, from, email, MailText(from, email, subject, name, encoded)))
  }

  /** With the sender the script ships with, it stops before sending, whatever the report. */
  lemma PlaceholderSenderNeverSends(encoded: string, name: string, subject: string, email: string)
    ensures MailReport(Domain.FromEmail, encoded, name, subject, email) == Err(Domain.ErrorMessage(Domain.FromEmail))
  {
    Domain.PlaceholderSenderFails();
  }

  /**
   * With a configured one-line sender `local@domain`, the report is
   * submitted: HELO `domain`, from the sender, to `email`, with the message
   * text.
   */
  lemma ConfiguredSenderSends(from: string, local: string, domain: string,
                              encoded: string, name: string, subject: string, email: string)
    requires '\n' !in from && Domain.SplitsOnce(from, local, domain)
    ensures MailReport(from, encoded, name, subject, email)
         == Ok(Submission(domain, from, email, MailText(from, email, subject, name, encoded)))
  {
    Domain.DomainOfSplit(from, local, domain);
  }
}

=== FILE: options.dfy ===
/**
 * The required-option check (send-report.rb lines 72-75): the script goes
 * on only when `-r`, `-e`, `-n` and `-s` were all given. Any given value is
 * truthy in Ruby, the empty string included.
 */
module Options {
  import opened Wrappers

  datatype Opt = Report | Email | Name | Subject

  datatype Options = Options(report: string, email: string, name: string, subject: string)

  /**
   * The first line of the usage text (line 46), with `$0` taken as
   * `send-report.rb`.
   */
  const Banner := "Usage: send-report.rb -r,--report <s3 url> -e,--email <email address>"

  /** How the script stops: the usage banner it prints first, and its exit status. */
  datatype Stop = Stop(banner: string, status: int)

  /** The four values when all were given; otherwise the usage banner and exit status 1. */
  function Validate(given: map<Opt, string>): (r: Result<Options, Stop>)
    ensures r.Ok? <==> Report in given && Email in given && Name in given && Subject in given
    ensures r.Ok? ==> r.value == Options(given[Report], given[Email], given[Name], given[Subject])
    ensures r.Err? ==> r.error == Stop(Banner, 1)
  {
    if Report in given && Email in given && Name in given && Subject in given then
      Ok(Options(given[Report], given[Email], given[Name], given[Subject]))
    else
      Err(Stop(Banner, 1))
  }

  /** Options given as empty strings still pass. */
  lemma EmptyValuesAccepted()
    ensures Validate(map[Report := "", Email := "", Name := "", Subject := ""]).Ok?
  {
  }

  /** Leaving out any one option stops the script, whatever else is given. */
  lemma MissingOneFails(given: map<Opt, string>, o: Opt)
    ensures Validate(given - {o}).Err?
  {
  }
}

=== FILE: report.dfy ===
/**
 * `prepareReport` (send-report.rb lines 125-159) without its shell: the
 * listing output of `s3cmd ls` is a parameter (a function of the listed
 * prefix), the commands the script runs are values of `Command`, and
 * whether each one succeeds is a parameter `ok`. What is modelled is the
 * control flow: which objects are downloaded where, in which order, when the
 * script stops with which error, and the path it returns.
 */
module Report {
  import opened Wrappers
  import opened Text
  import opened Listing

  /** The external commands, in the form `system` runs them (lines 144, 154, 156). */
  datatype Command =
    | Get(part: string, dest: string)      // s3cmd get <part> <dest>
    | Cat(partsDir: string, csv: string)   // find <partsDir> -type f | xargs cat > <csv>
    | Zip(zip: string, dir: string)        // zip -r -j <zip> <dir>

  /** The errors `prepareReport` raises. */
  datatype Failure =
    | CantDownload(part: string)
    | NoFilesFound(prefix: string)
    | CsvFailed(name: string)
    | ZipFailed(zip: string)

  // ---------------------------------------------------------------------
  // Path layout (lines 127, 144, 153-158)
  // ---------------------------------------------------------------------

  function PartsDir(tmp: string): string { tmp + "/parts" }
  function PartPath(tmp: string, file: string): string { PartsDir(tmp) + "/" + file }
  function ReportDir(tmp: string, name: string): string { tmp + "/" + name }
  function CsvPath(tmp: string, name: string): string { ReportDir(tmp, name) + "/" + name + ".csv" }
  function ZipPath(tmp: string, name: string): string { tmp + "/" + name + ".zip" }

  /**
   * A part lands directly in the parts directory, under its own name, and
   * two parts share a path exactly when they share a name (the later
   * download then replaces the earlier one).
   */
  lemma PartPathLayout(tmp: string, f1: string, f2: string)
    ensures StartsWith(PartPath(tmp, f1), PartsDir(tmp) + "/")
    ensures PartPath(tmp, f1)[|PartsDir(tmp)| + 1..] == f1
    ensures PartPath(tmp, f1) == PartPath(tmp, f2) <==> f1 == f2
  {
    var d := PartsDir(tmp) + "/";
    assert PartPath(tmp, f1) == d + f1 && PartPath(tmp, f2) == d + f2;
    assert (d + f1)[|d|..] == f1 && (d + f2)[|d|..] == f2;
  }

  /** The CSV is written inside the directory that gets zipped, and the zip lies outside it. */
  lemma ReportLayout(tmp: string, name: string)
    ensures StartsWith(CsvPath(tmp, name), ReportDir(tmp, name) + "/")
    ensures !StartsWith(ZipPath(tmp, name), ReportDir(tmp, name) + "/")
  {
    var d := ReportDir(tmp, name) + "/";
    assert CsvPath(tmp, name) == d + name + ".csv";
    assert CsvPath(tmp, name)[..|d|] == d;
    var i := |tmp| + 1 + |name|;
    assert ZipPath(tmp, name)[i] == '.';
    assert d[i] == '/';
  }

  // ---------------------------------------------------------------------
  // The listing loop (lines 139-150)
  // ---------------------------------------------------------------------

  /** The pattern's result on each line of the listing, in order. */
  function ParseAll(lines: seq<string>): (ps: seq<Option<Entry>>)
    requires forall i :: 0 <= i < |lines| ==> IsLine(lines[i])
    ensures |ps| == |lines|
  {
    if lines == [] then [] else [ParseLine(lines[0])] + ParseAll(lines[1..])
  }

  lemma {:induction false} ParseAllAt(lines: seq<string>, i: nat)
    requires i < |lines| && forall j :: 0 <= j < |lines| ==> IsLine(lines[j])
    ensures ParseAll(lines)[i] == ParseLine(lines[i])
  {
    if i > 0 {
      ParseAllAt(lines[1..], i - 1);
    }
  }

  /** The objects found, in listing order: the lines the pattern matched. */
  function Found(ps: seq<Option<Entry>>): (es: seq<Entry>)
    ensures |es| <= |ps|
  {
    if ps == [] then []
    else if ps[0].Some? then [ps[0].value] + Found(ps[1..])
    else Found(ps[1..])
  }

  lemma {:induction false} FoundAppend(a: seq<Option<Entry>>, b: seq<Option<Entry>>)
    ensures Found(a + b) == Found(a) + Found(b)
  {
    if a == [] {
      assert a + b == b;
    } else {
      assert (a + b)[0] == a[0];
      assert (a + b)[1..] == a[1..] + b;
      FoundAppend(a[1..], b);
    }
  }

  /** Nothing is found exactly when no line matched. */
  lemma {:induction false} FoundEmptyIff(ps: seq<Option<Entry>>)
    ensures Found(ps) == [] <==> forall i :: 0 <= i < |ps| ==> ps[i].None?
  {
    if ps != [] {
      FoundEmptyIff(ps[1..]);
      assert forall i :: 1 <= i < |ps| ==> ps[i] == ps[1..][i - 1];
    }
  }

  /** No line of the listing lists an object. */
  ghost predicate NoneListed(lines: seq<string>) {
    forall i :: 0 <= i < |lines| ==> !ListsObject(lines[i])
  }

  /** A listing yields no object exactly when none of its lines lists one. */
  lemma EntriesEmptyIff(lines: seq<string>)
    requires forall i :: 0 <= i < |lines| ==> IsLine(lines[i])
    ensures Found(ParseAll(lines)) == [] <==> NoneListed(lines)
  {
    var ps := ParseAll(lines);
    FoundEmptyIff(ps);
    forall i | 0 <= i < |lines| ensures ps[i].None? <==> !ListsObject(lines[i]) {
      ParseAllAt(lines, i);
      ParseLineIff(lines[i]);
    }
  }

  /** The download of each object, in order. */
  function GetsFor(tmp: string, es: seq<Entry>): (cs: seq<Command>)
    ensures |cs| == |es|
    ensures forall j :: 0 <= j < |es| ==> cs[j] == Get(es[j].part, PartPath(tmp, es[j].file))
  {
    if es == [] then [] else [Get(es[0].part, PartPath(tmp, es[0].file))] + GetsFor(tmp, es[1..])
  }

  /** Index of the first command that fails, or `|cs|` when all succeed. */
  function FirstFailed(cs: seq<Command>, ok: Command -> bool): (k: nat)
    ensures k <= |cs|
    ensures forall j :: 0 <= j < k ==> ok(cs[j])
    ensures k < |cs| ==> !ok(cs[k])
  {
    if cs == [] || !ok(cs[0]) then 0 else 1 + FirstFailed(cs[1..], ok)
  }

  /** The objects the listing of the normalised prefix shows. */
  function ListingEntries(s3path: string, ls: string -> string): seq<Entry> {
    var lines := SplitLines(ls(NormalizePrefix(s3path)));
    SplitLinesAreLines(ls(NormalizePrefix(s3path)));
    Found(ParseAll(lines))
  }

  /**
   * What `prepareReport` does, as a whole: the error or report path it ends
   * with, and the commands it has run by then.
   */
  function Prepare(tmp: string, name: string, s3path: string, ls: string -> string, ok: Command -> bool)
    : (Result<string, Failure>, seq<Command>)
  {
    Finish(tmp, name, NormalizePrefix(s3path), ListingEntries(s3path, ls), ok)
  }

  /** The outcome once the objects `es` of the listing of `prefix` are known. */
  function Finish(tmp: string, name: string, prefix: string, es: seq<Entry>, ok: Command -> bool)
    : (Result<string, Failure>, seq<Command>)
  {
    var gets := GetsFor(tmp, es);
    var k := FirstFailed(gets, ok);
    if k < |gets| then (Err(CantDownload(es[k].part)), gets[..k + 1])
    else if es == [] then (Err(NoFilesFound(prefix)), [])
    else
      var cat := Cat(PartsDir(tmp), CsvPath(tmp, name));
      var zip := Zip(ZipPath(tmp, name), ReportDir(tmp, name));
      if !ok(cat) then (Err(CsvFailed(name)), gets + [cat])
      else if !ok(zip) then (Err(ZipFailed(ZipPath(tmp, name))), gets + [cat, zip])
      else (Ok(ZipPath(tmp, name)), gets + [cat, zip])
  }

  /**
   * The report is produced exactly when the listing shows some object and
   * every command run succeeds; its path is then `tmp/name.zip`, after one
   * download per object, the concatenation and the zip.
   */
  lemma PrepareOkIff(tmp: string, name: string, s3path: string, ls: string -> string, ok: Command -> bool)
    ensures var (r, issued) := Prepare(tmp, name, s3path, ls, ok);
      r.Ok? <==> ListingEntries(s3path, ls) != [] && forall j :: 0 <= j < |issued| ==> ok(issued[j])
    ensures var (r, issued) := Prepare(tmp, name, s3path, ls, ok);
      r.Ok? ==> (r.value == ZipPath(tmp, name) &&
                 issued == GetsFor(tmp, ListingEntries(s3path, ls))
                           + [Cat(PartsDir(tmp), CsvPath(tmp, name)), Zip(ZipPath(tmp, name), ReportDir(tmp, name))])
  {
    var es := ListingEntries(s3path, ls);
    var gets := GetsFor(tmp, es);
    var k := FirstFailed(gets, ok);
    var (r, issued) := Prepare(tmp, name, s3path, ls, ok);
    if k < |gets| {
      assert issued[k] == gets[k];
    } else if es != [] {
      assert issued[..|gets|] == gets;
      if !ok(Cat(PartsDir(tmp), CsvPath(tmp, name))) {
        assert issued[|gets|] == Cat(PartsDir(tmp), CsvPath(tmp, name));
      } else {
        assert issued[|gets| + 1] == Zip(ZipPath(tmp, name), ReportDir(tmp, name));
      }
    }
  }

  /**
   * A one-line prefix given without its trailing "/" behaves exactly as the
   * same prefix given with it: same listing, same commands, same outcome.
   */
  lemma PrepareTrailingSlash(tmp: string, name: string, s: string, ls: string -> string, ok: Command -> bool)
    requires '\n' !in s && !EndsWith(s, "/")
    ensures Prepare(tmp, name, s, ls, ok) == Prepare(tmp, name, s + "/", ls, ok)
  {
    NormalizeOneLine(s);
    assert '\n' !in s + "/";
    assert EndsWith(s + "/", "/");
    NormalizeOneLine(s + "/");
  }

  /** "no files found" is raised exactly when no line of the listing names an object. */
  lemma NoFilesIff(tmp: string, name: string, s3path: string, ls: string -> string, ok: Command -> bool)
    ensures Prepare(tmp, name, s3path, ls, ok).0 == Err(NoFilesFound(NormalizePrefix(s3path)))
        <==> NoneListed(SplitLines(ls(NormalizePrefix(s3path))))
  {
    var lines := SplitLines(ls(NormalizePrefix(s3path)));
    SplitLinesAreLines(ls(NormalizePrefix(s3path)));
    EntriesEmptyIff(lines);
    var es := ListingEntries(s3path, ls);
    assert es == Found(ParseAll(lines));
    assert Prepare(tmp, name, s3path, ls, ok) == Finish(tmp, name, NormalizePrefix(s3path), es, ok);
    FinishNoFilesIff(tmp, name, NormalizePrefix(s3path), es, ok);
  }

  /** Once the objects are known, "no files found" is raised exactly when there are none. */
  lemma FinishNoFilesIff(tmp: string, name: string, prefix: string, es: seq<Entry>, ok: Command -> bool)
    ensures Finish(tmp, name, prefix, es, ok).0 == Err(NoFilesFound(prefix)) <==> es == []
  {
    if es == [] {
      assert GetsFor(tmp, es) == [];
    }
  }

  /**
   * A failed download stops the script at once: the commands run are the
   * downloads of the objects up to and including the failing one, all but
   * the last of which succeeded.
   */
  lemma DownloadFailureStops(tmp: string, name: string, s3path: string, ls: string -> string, ok: Command -> bool)
    requires Prepare(tmp, name, s3path, ls, ok).0.Err?
    requires Prepare(tmp, name, s3path, ls, ok).0.error.CantDownload?
    ensures var (r, issued) := Prepare(tmp, name, s3path, ls, ok);
      var es := ListingEntries(s3path, ls);
      && 0 < |issued| <= |es|
      && issued[|issued| - 1] == Get(r.error.part, PartPath(tmp, es[|issued| - 1].file))
      && !ok(issued[|issued| - 1])
      && (forall j :: 0 <= j < |issued| ==> issued[j] == Get(es[j].part, PartPath(tmp, es[j].file)))
      && (forall j :: 0 <= j < |issued| - 1 ==> ok(issued[j]))
  {
    var es := ListingEntries(s3path, ls);
    assert Prepare(tmp, name, s3path, ls, ok) == Finish(tmp, name, NormalizePrefix(s3path), es, ok);
    FinishFailureStops(tmp, name, NormalizePrefix(s3path), es, ok);
  }

  lemma FinishFailureStops(tmp: string, name: string, prefix: string, es: seq<Entry>, ok: Command -> bool)
    requires Finish(tmp, name, prefix, es, ok).0.Err?
    requires Finish(tmp, name, prefix, es, ok).0.error.CantDownload?
    ensures var (r, issued) := Finish(tmp, name, prefix, es, ok);
      && 0 < |issued| <= |es|
      && issued[|issued| - 1] == Get(r.error.part, PartPath(tmp, es[|issued| - 1].file))
      && !ok(issued[|issued| - 1])
      && (forall j :: 0 <= j < |issued| ==> issued[j] == Get(es[j].part, PartPath(tmp, es[j].file)))
      && (forall j :: 0 <= j < |issued| - 1 ==> ok(issued[j]))
  {
    var gets := GetsFor(tmp, es);
    var k := FirstFailed(gets, ok);
    assert k < |gets|;
    var issued := Finish(tmp, name, prefix, es, ok).1;
    assert issued == gets[..k + 1];
    assert forall j :: 0 <= j <= k ==> issued[j] == gets[j];
  }

  /**
   * The script itself: the prefix is normalised, the listing is scanned
   * line by line, each matching object is downloaded and counted, and the
   * run stops at the first failure.
   */
  method PrepareReport(tmp: string, name: string, s3path: string, ls: string -> string, ok: Command -> bool)
    returns (r: Result<string, Failure>, issued: seq<Command>)
    ensures (r, issued) == Prepare(tmp, name, s3path, ls, ok)
  {
    var prefix := s3path;
    if !LineEndsInSlash(prefix) {
      prefix := prefix + "/";
    }
    var listing := ls(prefix);
    SplitLinesAreLines(listing);
    var filecount, failed;
    filecount, issued, failed := DownloadAll(tmp, SplitLines(listing), ok);
    assert prefix == NormalizePrefix(s3path);
    ghost var es := Found(ParseAll(SplitLines(listing)));
    assert es == ListingEntries(s3path, ls);
    if failed.Some? {
      return Err(CantDownload(failed.value)), issued;
    }
    if filecount == 0 {
      return Err(NoFilesFound(prefix)), issued;
    }
    ghost var gets := issued;
    var cat := Cat(PartsDir(tmp), CsvPath(tmp, name));
    issued := issued + [cat];
    if !ok(cat) {
      return Err(CsvFailed(name)), issued;
    }
    var zip := Zip(ZipPath(tmp, name), ReportDir(tmp, name));
    issued := issued + [zip];
    assert issued == gets + [cat, zip];
    if !ok(zip) {
      return Err(ZipFailed(ZipPath(tmp, name))), issued;
    }
    return Ok(ZipPath(tmp, name)), issued;
  }

  /**
   * The listing loop (lines 139-148): `filecount` counts the objects
   * downloaded, and the first failed download ends the run with its `part`.
   */
  method DownloadAll(tmp: string, lines: seq<string>, ok: Command -> bool)
    returns (filecount: nat, issued: seq<Command>, failed: Option<string>)
    requires forall i :: 0 <= i < |lines| ==> IsLine(lines[i])
    ensures var gets := GetsFor(tmp, Found(ParseAll(lines)));
      failed.None? <==> FirstFailed(gets, ok) == |gets|
    ensures failed.None? ==> issued == GetsFor(tmp, Found(ParseAll(lines))) && filecount == |Found(ParseAll(lines))|
    ensures var gets := GetsFor(tmp, Found(ParseAll(lines)));
      var k := FirstFailed(gets, ok);
      failed.Some? ==> k < |gets| && failed.value == Found(ParseAll(lines))[k].part && issued == gets[..k + 1]
  {
    ghost var ps := ParseAll(lines);
    filecount := 0;
    issued := [];
    for i := 0 to |lines|
      invariant filecount == |Found(ps[..i])|
      invariant issued == GetsFor(tmp, Found(ps[..i]))
      invariant forall j :: 0 <= j < |issued| ==> ok(issued[j])
    {
      var parsed := ParseLine(lines[i]);
      ParseAllAt(lines, i);
      DownloadStep(tmp, ps, i);
      if parsed.Some? {
        var get := Get(parsed.value.part, PartPath(tmp, parsed.value.file));
        if !ok(get) {
          StopAt(tmp, ps, i, ok);
          return filecount, issued + [get], Some(parsed.value.part);
        }
        AllOkAppend(issued, get, ok);
        issued := issued + [get];
        filecount := filecount + 1;
      }
    }
    assert ps[..|lines|] == ps;
    FailsAt(issued, |issued|, ok);
    return filecount, issued, None;
  }

  lemma AllOkAppend(cs: seq<Command>, c: Command, ok: Command -> bool)
    requires forall j :: 0 <= j < |cs| ==> ok(cs[j])
    requires ok(c)
    ensures forall j :: 0 <= j < |cs + [c]| ==> ok((cs + [c])[j])
  {
  }

  /** Reading line `i` adds its object, if any, to the objects found so far. */
  lemma DownloadStep(tmp: string, ps: seq<Option<Entry>>, i: nat)
    requires i < |ps|
    ensures Found(ps[..i + 1]) == Found(ps[..i]) + (if ps[i].Some? then [ps[i].value] else [])
    ensures GetsFor(tmp, Found(ps[..i + 1]))
         == GetsFor(tmp, Found(ps[..i])) + (if ps[i].Some? then [Get(ps[i].value.part, PartPath(tmp, ps[i].value.file))] else [])
  {
    assert ps[..i + 1] == ps[..i] + [ps[i]];
    FoundAppend(ps[..i], [ps[i]]);
    assert [ps[i]][1..] == [];
    GetsAppend(tmp, Found(ps[..i]), Found([ps[i]]));
  }

  lemma {:induction false} GetsAppend(tmp: string, a: seq<Entry>, b: seq<Entry>)
    ensures GetsFor(tmp, a + b) == GetsFor(tmp, a) + GetsFor(tmp, b)
  {
    if a != [] {
      assert (a + b)[1..] == a[1..] + b;
      GetsAppend(tmp, a[1..], b);
    } else {
      assert a + b == b;
    }
  }

  /** When the download of line `i`'s object fails, it is the first failure over the whole listing. */
  lemma StopAt(tmp: string, ps: seq<Option<Entry>>, i: nat, ok: Command -> bool)
    requires i < |ps| && ps[i].Some?
    requires forall j :: 0 <= j < |Found(ps[..i])| ==> ok(GetsFor(tmp, Found(ps[..i]))[j])
    requires !ok(Get(ps[i].value.part, PartPath(tmp, ps[i].value.file)))
    ensures var gets := GetsFor(tmp, Found(ps));
      var k := |Found(ps[..i])|;
      && k < |Found(ps)|
      && FirstFailed(gets, ok) == k
      && Found(ps)[k] == ps[i].value
      && gets[..k + 1] == GetsFor(tmp, Found(ps[..i + 1]))
  {
    var before := Found(ps[..i + 1]);
    DownloadStep(tmp, ps, i);
    assert ps == ps[..i + 1] + ps[i + 1..];
    FoundAppend(ps[..i + 1], ps[i + 1..]);
    var es := Found(ps);
    assert es == before + Found(ps[i + 1..]);
    GetsAppend(tmp, before, Found(ps[i + 1..]));
    var gets := GetsFor(tmp, es);
    var k := |Found(ps[..i])|;
    assert before[k] == ps[i].value;
    assert gets[..k + 1] == GetsFor(tmp, before);
    FailsAt(gets, k, ok);
  }

  /** Everything before `k` succeeds and `k` fails, or is the end: `k` is where the first failure is reported. */
  lemma {:induction false} FailsAt(cs: seq<Command>, k: nat, ok: Command -> bool)
    requires k <= |cs| && (k < |cs| ==> !ok(cs[k])) && forall j :: 0 <= j < k ==> ok(cs[j])
    ensures FirstFailed(cs, ok) == k
  {
    if k > 0 {
      FailsAt(cs[1..], k - 1, ok);
    }
  }
}

=== FILE: s3config.dfy ===
/**
 * `configureS3Cmd` (send-report.rb lines 108-122): write the credentials
 * into `/home/hadoop/.s3cfg` in the `[default]` section s3cmd reads, unless
 * that file already exists.
 */
module S3Config {
  import opened Wrappers
  import opened Text
  import Credentials

  const CfgPath := Credentials.Hadoop + "/.s3cfg"

  const KeyLabel := "access_key = "
  const AclLine := "acl_public = False\n"
  const LocationLine := "bucket_location = US\n"
  const EncryptLine := "encrypt = False\n"
  const SecretLabel := "secret_key = "

  /** The six lines of the configuration heredoc. */
  function ConfigLines(c: Credentials.Credentials): seq<string> {
    ["[default]\n", KeyLabel + c.key + "\n", AclLine, LocationLine, EncryptLine, SecretLabel + c.secret + "\n"]
  }

  /** The text written to the file. */
  function Render(c: Credentials.Credentials): string {
    Concat(ConfigLines(c))
  }

  /**
   * Opening the absent file with mode "w" creates it empty; the heredoc is
   * then evaluated, and without credentials `creds.key` raises, leaving the
   * empty file behind. An existing file is never opened.
   */
  function WriteIfAbsent(files: map<string, string>, creds: Option<Credentials.Credentials>)
    : (r: (map<string, string>, Result<(), string>))
  {
    if CfgPath in files then (files, Ok(()))
    else if creds.None? then (files[CfgPath := ""], Err("undefined method `key' for nil"))
    else (files[CfgPath := Render(creds.value)], Ok(()))
  }

  /** The files of the machine, as path -> contents. */
  class FileSystem {
    var files: map<string, string>

    constructor (initial: map<string, string>)
      ensures files == initial
    {
      files := initial;
    }

    method ConfigureS3Cmd(creds: Option<Credentials.Credentials>) returns (r: Result<(), string>)
      modifies this
      ensures (files, r) == WriteIfAbsent(old(files), creds)
    {
      if CfgPath !in files {
        files := files[CfgPath := ""];
        if creds.None? {
          return Err("undefined method `key' for nil");
        }
        files := files[CfgPath := Render(creds.value)];
        assert files == old(files)[CfgPath := Render(creds.value)];
      }
      r := Ok(());
    }
  }

  /**
   * With single-line values, the file reads back as the six lines of the
   * `[default]` section, the key on the second and the secret on the last.
   */
  lemma RenderLines(c: Credentials.Credentials)
    requires '\n' !in c.key && '\n' !in c.secret
    ensures SplitLines(Render(c)) == ConfigLines(c)
    ensures |ConfigLines(c)| == 6 && ConfigLines(c)[0] == "[default]\n"
    ensures ConfigLines(c)[1] == KeyLabel + c.key + "\n" && ConfigLines(c)[5] == SecretLabel + c.secret + "\n"
  {
    ConfigLinesWhole(c);
    SplitWholeLines(ConfigLines(c));
  }

  lemma ConfigLinesWhole(c: Credentials.Credentials)
    requires '\n' !in c.key && '\n' !in c.secret
    ensures forall i :: 0 <= i < |ConfigLines(c)| ==> WholeLine(ConfigLines(c)[i])
  {
    FixedConfigLines();
    LabelsOneLine();
    LineWhole(KeyLabel + c.key);
    LineWhole(SecretLabel + c.secret);
  }

  lemma LabelsOneLine()
    ensures '\n' !in KeyLabel && '\n' !in SecretLabel
  {
  }

  lemma FixedConfigLines()
    ensures WholeLine("[default]\n") && WholeLine(AclLine) && WholeLine(LocationLine) && WholeLine(EncryptLine)
  {
    LineWhole("[default]");
    LineWhole("acl_public = False");
    LineWhole("bucket_location = US");
    LineWhole("encrypt = False");
  }

  /** The rendered file determines the credentials it was written from. */
  lemma RenderInjective(c: Credentials.Credentials, d: Credentials.Credentials)
    requires '\n' !in c.key && '\n' !in c.secret && '\n' !in d.key && '\n' !in d.secret
    requires Render(c) == Render(d)
    ensures c == d
  {
    RenderLines(c);
    RenderLines(d);
    var kc, kd := ConfigLines(c)[1], ConfigLines(d)[1];
    assert c.key == kc[|KeyLabel|..|kc| - 1];
    assert d.key == kd[|KeyLabel|..|kd| - 1];
    var sc, sd := ConfigLines(c)[5], ConfigLines(d)[5];
    assert c.secret == sc[|SecretLabel|..|sc| - 1];
    assert d.secret == sd[|SecretLabel|..|sd| - 1];
  }

  /** The configuration written from what the Hadoop files hold reads back as its six lines. */
  lemma ConfiguredFromHadoop(files: map<string, string>)
    requires Credentials.Resolve(files).Some?
    requires CfgPath !in files
    ensures var after := WriteIfAbsent(files, Credentials.Resolve(files)).0;
      CfgPath in after && SplitLines(after[CfgPath]) == ConfigLines(Credentials.Resolve(files).value)
  {
    Credentials.ResolvedPlain(files);
    RenderLines(Credentials.Resolve(files).value);
  }

  /** An existing file, and every other path, is left as it was; nothing else changes. */
  lemma WriteIfAbsentFrame(files: map<string, string>, creds: Option<Credentials.Credentials>)
    ensures var after := WriteIfAbsent(files, creds).0;
      after.Keys == files.Keys + {CfgPath}
      && (forall p :: p in files && p != CfgPath ==> after[p] == files[p])
      && (CfgPath in files ==> after == files)
  {
  }

  /** A second run finds the file and changes nothing. */
  lemma WriteIfAbsentIdempotent(files: map<string, string>, creds: Option<Credentials.Credentials>)
    ensures var once := WriteIfAbsent(files, creds).0;
      WriteIfAbsent(once, creds) == (once, Ok(()))
  {
  }

  /** Writing succeeds unless the file is absent and there are no credentials. */
  lemma WriteIfAbsentFails(files: map<string, string>, creds: Option<Credentials.Credentials>)
    ensures WriteIfAbsent(files, creds).1.Err? <==> CfgPath !in files && creds.None?
    ensures WriteIfAbsent(files, creds).1.Ok? && CfgPath !in files ==>
      WriteIfAbsent(files, creds).0[CfgPath] == Render(creds.value)
  {
  }
}

=== FILE: tags.dfy ===
/**
 * The two Hadoop property patterns of send-report.rb (lines 90 and 93):
 *
 *   <property><name>NAME</name><value>(.+)</value></property>
 *
 * matched with Ruby's `=~`, i.e. searched for anywhere in the line. The model
 * follows the regex engine's order: start positions are tried from the left,
 * each unescaped `.` of NAME (the dots of `fs.s3n.`) matches any character but
 * a newline, and the greedy `(.+)` takes the longest run without a newline
 * that is still followed by the closing tags.
 */
module Tags {
  import opened Wrappers
  import opened Text

  const PropertyOpen := "<property><name>"
  const ValueOpen := "</name><value>"
  const Close := "</value></property>"

  /** The property names of Hadoop's S3 native file system credentials. */
  const SecretName := "fs.s3n.awsSecretAccessKey"
  const KeyName := "fs.s3n.awsAccessKeyId"

  /** The part of a pattern before the capture group. */
  function OpenFor(name: string): string {
    PropertyOpen + name + ValueOpen
  }

  /** One pattern character against one text character: `.` is the regex wildcard. */
  predicate CharMatches(p: char, c: char) {
    if p == '.' then c != '\n' else c == p
  }

  /** `pat` (with wildcards) matches `s` at position `i`. */
  predicate PatternAt(pat: string, s: string, i: nat) {
    i + |pat| <= |s| && forall k :: 0 <= k < |pat| ==> CharMatches(pat[k], s[i + k])
  }

  /**
   * The whole regex matches `s` with the opening part at `i` and the closing
   * tags at `j`: the capture is `s[i + |open|..j]`, non-empty and newline-free.
   */
  predicate Captures(open: string, s: string, i: nat, j: nat) {
    && PatternAt(open, s, i)
    && i + |open| < j
    && PatternAt(Close, s, j)
    && forall k :: i + |open| <= k < j ==> s[k] != '\n'
  }

  /** The largest `j` in `(lo, hi]` at which the closing tags start: the greedy `(.+)` backing off. */
  function LastClose(s: string, lo: nat, hi: nat): (r: Option<nat>)
    ensures r.Some? ==> lo < r.value <= hi && PatternAt(Close, s, r.value)
    ensures forall j :: (if r.Some? then r.value else lo) < j <= hi ==> !PatternAt(Close, s, j)
    decreases hi
  {
    if hi <= lo then None
    else if PatternAt(Close, s, hi) then Some(hi)
    else LastClose(s, lo, hi - 1)
  }

  /**
   * The regex search from start position `i` on: the leftmost start at which
   * the pattern matches, with the longest capture there.
   */
  function FindFrom(open: string, s: string, i: nat): (r: Option<(nat, nat)>)
    ensures r.Some? ==> i <= r.value.0 && Captures(open, s, r.value.0, r.value.1)
    ensures r.Some? ==> forall b :: r.value.1 < b ==> !Captures(open, s, r.value.0, b)
    ensures forall a, b :: i <= a && (r.None? || a < r.value.0) ==> !Captures(open, s, a, b)
    decreases |s| - i
  {
    if i + |open| >= |s| then None
    else if PatternAt(open, s, i) then
      var start := i + |open|;
      match LastClose(s, start, IndexFrom(s, '\n', start))
      case Some(j) => Some((i, j))
      case None => FindFrom(open, s, i + 1)
    else FindFrom(open, s, i + 1)
  }

  /** `line =~ pattern`, giving `$1` on a match and `nil` otherwise. */
  function Match(open: string, line: string): (r: Option<string>)
    ensures r.Some? ==> |r.value| > 0 && '\n' !in r.value
  {
    match FindFrom(open, line, 0)
    case None => None
    case Some(p) => Some(line[p.0 + |open|..p.1])
  }

  const SecretOpen := OpenFor(SecretName)
  const KeyOpen := OpenFor(KeyName)

  /** The configuration line that sets property `name` to `v`. */
  function TagLine(name: string, v: string): string {
    OpenFor(name) + v + Close + "\n"
  }

  /**
   * A well-formed property line, with or without its final newline, gives back
   * exactly its value (greedy matching does not run past the closing tags).
   */
  lemma TagLineMatches(name: string, v: string, t: string)
    requires '\n' !in name && v != [] && '\n' !in v
    requires t == "" || t == "\n"
    ensures Match(OpenFor(name), OpenFor(name) + v + Close + t) == Some(v)
  {
    assert '\n' !in OpenFor(name);
    MatchesValue(OpenFor(name), v, t);
  }

  lemma MatchesValue(open: string, v: string, t: string)
    requires '\n' !in open && v != [] && '\n' !in v
    requires t == "" || t == "\n"
    ensures Match(open, open + v + Close + t) == Some(v)
  {
    var line := open + v + Close + t;
    var j := |open| + |v|;
    LineCaptures(open, v, t);
    var r := FindFrom(open, line, 0);
    assert r.Some?;
    assert r.value.0 == 0;
    assert r.value.1 == j;
    assert forall k :: 0 <= k < |v| ==> line[|open| + k] == v[k];
    assert line[|open|..j] == v;
  }

  /** The regex matches a property line with the opening part at 0 and the closing tags right after the value, and nowhere later. */
  lemma LineCaptures(open: string, v: string, t: string)
    requires '\n' !in open && v != [] && '\n' !in v
    requires t == "" || t == "\n"
    ensures Captures(open, open + v + Close + t, 0, |open| + |v|)
    ensures forall b :: |open| + |v| < b ==> !PatternAt(Close, open + v + Close + t, b)
  {
    var line := open + v + Close + t;
    var j := |open| + |v|;
    assert PatternAt(open, line, 0) by {
      forall k | 0 <= k < |open| ensures CharMatches(open[k], line[k]) {
        assert line[k] == open[k];
        assert open[k] in open;
      }
    }
    assert PatternAt(Close, line, j) by {
      forall k | 0 <= k < |Close| ensures CharMatches(Close[k], line[j + k]) {
        assert line[j + k] == Close[k];
      }
    }
    assert forall k :: |open| <= k < j ==> line[k] == v[k - |open|];
    CloseOnlyOnce(open + v, t);
  }

  /** After the closing tags at the end of a line there is no room for another occurrence. */
  lemma CloseOnlyOnce(head: string, t: string)
    requires t == "" || t == "\n"
    ensures forall b :: |head| < b ==> !PatternAt(Close, head + Close + t, b)
  {
    var line := head + Close + t;
    forall b | |head| < b && b + |Close| <= |line| ensures !PatternAt(Close, line, b) {
      assert line[b + 18] == '\n';
      assert Close[18] == '>';
    }
  }

  /**
   * The opening part of pattern `open` cannot match anywhere in the line of a
   * different property when `open[k]`, a character absent from that line's
   * fixed text, would have to fall inside the value, and the value has no `<`.
   */
  lemma NoOpenInOtherLine(open: string, k: nat, name: string, v: string)
    requires 1 < k < |open| && open[0] == '<' && open[1] == 'p' && open[k] != '.'
    requires open[k] !in OpenFor(name) && open[k] !in Close && open[k] != '\n'
    requires |PropertyOpen| + k <= |OpenFor(name)|
    requires '<' !in name && '<' !in v
    ensures forall a :: !PatternAt(open, TagLine(name, v), a)
  {
  }

  /**
   * The two patterns do not interfere: a key line sets no secret and a secret
   * line sets no key, as long as the values carry no `<`.
   */
  lemma TagLinesExclusive(v: string)
    requires '<' !in v
    ensures Match(SecretOpen, TagLine(KeyName, v)) == None
    ensures Match(KeyOpen, TagLine(SecretName, v)) == None
  {
    SecretOpenFacts();
    NoOpenInOtherLine(SecretOpen, 26, KeyName, v);
    NoMatchWithoutOpen(SecretOpen, TagLine(KeyName, v));
    KeyOpenFacts();
    NoOpenInOtherLine(KeyOpen, 35, SecretName, v);
    NoMatchWithoutOpen(KeyOpen, TagLine(SecretName, v));
  }

  lemma NoMatchWithoutOpen(open: string, line: string)
    requires forall a: nat :: !PatternAt(open, line, a)
    ensures Match(open, line) == None
  {
    var r := FindFrom(open, line, 0);
  }

  lemma SecretOpenFacts()
    ensures 1 < 26 < |SecretOpen| && SecretOpen[0] == '<' && SecretOpen[1] == 'p' && SecretOpen[26] == 'S'
    ensures 'S' !in OpenFor(KeyName) && 'S' !in Close
    ensures |PropertyOpen| + 26 <= |OpenFor(KeyName)| && '<' !in KeyName
  {
    OpenAt(SecretName, 10, 'S');
    Absent('S', KeyName);
    NamesPlain();
  }

  lemma KeyOpenFacts()
    ensures 1 < 35 < |KeyOpen| && KeyOpen[0] == '<' && KeyOpen[1] == 'p' && KeyOpen[35] == 'I'
    ensures 'I' !in OpenFor(SecretName) && 'I' !in Close
    ensures |PropertyOpen| + 35 <= |OpenFor(SecretName)| && '<' !in SecretName
  {
    OpenAt(KeyName, 19, 'I');
    Absent('I', SecretName);
    NamesPlain();
  }

  /** Where character `i` of a property name sits in its opening pattern. */
  lemma OpenAt(name: string, i: nat, c: char)
    requires i < |name| && name[i] == c
    ensures 1 < |PropertyOpen| + i < |OpenFor(name)|
    ensures OpenFor(name)[0] == '<' && OpenFor(name)[1] == 'p' && OpenFor(name)[|PropertyOpen| + i] == c
  {
    assert OpenFor(name)[|PropertyOpen| + i] == name[i];
  }

  /** A character of neither the fixed tags nor `name` is absent from the line of `name`'s pattern. */
  lemma Absent(c: char, name: string)
    requires c in "SI" && c !in name
    ensures c !in OpenFor(name) && c !in Close
  {
    assert c !in PropertyOpen && c !in ValueOpen && c !in Close;
  }

  lemma NamesPlain()
    ensures '<' !in KeyName && '<' !in SecretName && 'S' !in KeyName && 'I' !in SecretName
  {
    KeyNamePlain();
    SecretNamePlain();
  }

  lemma KeyNamePlain()
    ensures '<' !in KeyName && 'S' !in KeyName
  {
  }

  lemma SecretNamePlain()
    ensures '<' !in SecretName && 'I' !in SecretName
  {
  }
}

=== FILE: text.dfy ===
/**
 * Strings as Ruby 1.8 splits them into lines: `IO.readlines` and `String#each`
 * both cut a text after every "\n", keeping the "\n" on the line it ends.
 */
module Text {

  /** Index of the first occurrence of `c` in `s` at or after `from`, or `|s|` if there is none. */
  function IndexFrom(s: string, c: char, from: nat): (k: nat)
    requires from <= |s|
    ensures from <= k <= |s|
    ensures forall i :: from <= i < k ==> s[i] != c
    ensures k < |s| ==> s[k] == c
    decreases |s| - from
  {
    if from == |s| || s[from] == c then from else IndexFrom(s, c, from + 1)
  }

  predicate EndsWith(s: string, suffix: string) {
    |suffix| <= |s| && s[|s| - |suffix|..] == suffix
  }

  predicate StartsWith(s: string, prefix: string) {
    |prefix| <= |s| && s[..|prefix|] == prefix
  }

  /** `s` has no `c` anywhere in `[lo, hi)`. */
  predicate NoneIn(s: string, c: char, lo: nat, hi: nat) {
    forall k :: lo <= k < hi && k < |s| ==> s[k] != c
  }

  /** Ruby's `$`: the end of the text or just before a "\n". */
  predicate Dollar(s: string, i: nat) {
    i == |s| || (i < |s| && s[i] == '\n')
  }

  /** Ruby's `^`: the start of the text or just after a "\n". */
  predicate Caret(s: string, i: nat) {
    i == 0 || (0 < i <= |s| && s[i - 1] == '\n')
  }

  /** A line as the splitter yields it: non-empty, and a "\n" can only be its last character. */
  predicate IsLine(line: string) {
    |line| > 0 && forall i :: 0 <= i < |line| - 1 ==> line[i] != '\n'
  }

  /** The lines of `s`, each keeping its terminating "\n"; a last line without one is kept too. */
  function SplitLines(s: string): (lines: seq<string>)
    decreases |s|
  {
    if s == [] then []
    else
      var k := IndexFrom(s, '\n', 0);
      if k == |s| then [s] else [s[..k + 1]] + SplitLines(s[k + 1..])
  }

  function Concat(lines: seq<string>): string {
    if lines == [] then [] else lines[0] + Concat(lines[1..])
  }

  lemma ConcatAppend(a: seq<string>, b: seq<string>)
    ensures Concat(a + b) == Concat(a) + Concat(b)
  {
    if a == [] {
      assert a + b == b;
    } else {
      assert (a + b)[1..] == a[1..] + b;
      ConcatAppend(a[1..], b);
    }
  }

  /** Splitting loses nothing: joining the lines gives back the text. */
  lemma {:induction false} SplitLinesConcat(s: string)
    ensures Concat(SplitLines(s)) == s
    decreases |s|
  {
    if s != [] {
      var k := IndexFrom(s, '\n', 0);
      if k < |s| {
        SplitLinesConcat(s[k + 1..]);
        assert s == s[..k + 1] + s[k + 1..];
      }
    }
  }

  /** The first piece the splitter cuts off is a line ending in "\n". */
  lemma FirstLineShape(s: string, k: nat)
    requires k < |s| && IndexFrom(s, '\n', 0) == k
    ensures IsLine(s[..k + 1]) && EndsInNewline(s[..k + 1])
  {
    var head := s[..k + 1];
    forall i | 0 <= i < |head| - 1 ensures head[i] != '\n' {
      assert head[i] == s[i];
    }
  }

  /** Every piece the splitter yields is a line. */
  lemma {:induction false} SplitLinesAreLines(s: string)
    ensures forall i :: 0 <= i < |SplitLines(s)| ==> IsLine(SplitLines(s)[i])
    decreases |s|
  {
    if s != [] {
      var k := IndexFrom(s, '\n', 0);
      if k < |s| {
        var rl := SplitLines(s[k + 1..]);
        assert forall j :: 0 <= j < |rl| ==> IsLine(rl[j]) by {
          SplitLinesAreLines(s[k + 1..]);
        }
        FirstLineShape(s, k);
        SplitLinesStep(s, k);
        var lines := SplitLines(s);
        forall i | 0 <= i < |lines| ensures IsLine(lines[i]) {
          if i > 0 { assert lines[i] == rl[i - 1]; }
        }
      }
    }
  }

  predicate EndsInNewline(l: string) {
    |l| > 0 && l[|l| - 1] == '\n'
  }

  /** A whole line: its only "\n" is the one that ends it. */
  predicate WholeLine(l: string) {
    IsLine(l) && l[|l| - 1] == '\n'
  }

  /** A text with no "\n", followed by one, is a whole line. */
  lemma LineWhole(x: string)
    requires '\n' !in x
    ensures WholeLine(x + "\n")
  {
    assert forall i :: 0 <= i < |x| ==> (x + "\n")[i] == x[i];
  }

  /** Every line but the last ends in "\n". */
  lemma {:induction false} SplitLinesEnds(s: string)
    ensures forall i :: 0 <= i < |SplitLines(s)| - 1 ==> EndsInNewline(SplitLines(s)[i])
    decreases |s|
  {
    if s != [] {
      var k := IndexFrom(s, '\n', 0);
      if k < |s| {
        var rl := SplitLines(s[k + 1..]);
        assert forall j :: 0 <= j < |rl| - 1 ==> EndsInNewline(rl[j]) by {
          SplitLinesEnds(s[k + 1..]);
        }
        FirstLineShape(s, k);
        SplitLinesStep(s, k);
        var lines := SplitLines(s);
        forall i | 0 <= i < |lines| - 1 ensures EndsInNewline(lines[i]) {
          if i > 0 { assert lines[i] == rl[i - 1]; }
        }
      }
    }
  }

  /** The last line ends in "\n" exactly when the text does. */
  lemma {:induction false} SplitLinesLast(s: string)
    requires s != []
    ensures SplitLines(s) != [] && (EndsInNewline(SplitLines(s)[|SplitLines(s)| - 1]) <==> s[|s| - 1] == '\n')
    decreases |s|
  {
    var k := IndexFrom(s, '\n', 0);
    if k < |s| {
      var rest := s[k + 1..];
      var lines := SplitLines(s);
      assert lines == [s[..k + 1]] + SplitLines(rest) by {
        SplitLinesStep(s, k);
      }
      if rest != [] {
        var rl := SplitLines(rest);
        assert rl != [] && (EndsInNewline(rl[|rl| - 1]) <==> rest[|rest| - 1] == '\n') by {
          SplitLinesLast(rest);
        }
        assert rest[|rest| - 1] == s[|s| - 1];
        LastOfCons(s[..k + 1], rl);
      } else {
        assert k == |s| - 1;
        assert lines == [s[..k + 1]];
        FirstLineShape(s, k);
      }
    }
  }

  lemma LastOfCons<T>(x: T, xs: seq<T>)
    requires xs != []
    ensures ([x] + xs)[|[x] + xs| - 1] == xs[|xs| - 1]
  {
  }

  /** One step of the splitter: the text up to its first "\n", then the rest. */
  lemma SplitLinesStep(s: string, k: nat)
    requires k < |s| && IndexFrom(s, '\n', 0) == k
    ensures SplitLines(s) == [s[..k + 1]] + SplitLines(s[k + 1..])
  {
  }

  lemma AppendAssoc<T>(a: seq<T>, b: seq<T>, c: seq<T>)
    ensures a + (b + c) == (a + b) + c
  {
  }

  /** A text made of whole lines splits into those lines, then into what follows. */
  lemma {:induction false} SplitLinesAppend(a: string, b: string)
    requires a == [] || a[|a| - 1] == '\n'
    ensures SplitLines(a + b) == SplitLines(a) + SplitLines(b)
    decreases |a|
  {
    if a == [] {
      assert a + b == b;
    } else {
      var k := IndexFrom(a, '\n', 0);
      var x, ra := a[..k + 1], a[k + 1..];
      SplitFirstOfAppend(a, b, k);
      assert SplitLines(ra + b) == SplitLines(ra) + SplitLines(b) by {
        SplitLinesAppend(ra, b);
      }
      AppendAssoc([x], SplitLines(ra), SplitLines(b));
    }
  }

  /** The first line of `a`, when it ends inside `a`, is also the first line of `a + b`. */
  lemma SplitFirstOfAppend(a: string, b: string, k: nat)
    requires k < |a| && IndexFrom(a, '\n', 0) == k
    ensures SplitLines(a + b) == [a[..k + 1]] + SplitLines(a[k + 1..] + b)
    ensures SplitLines(a) == [a[..k + 1]] + SplitLines(a[k + 1..])
  {
    var ab := a + b;
    IndexFromPrefix(a, b, 0);
    assert ab[..k + 1] == a[..k + 1];
    assert ab[k + 1..] == a[k + 1..] + b;
    SplitLinesStep(ab, k);
    SplitLinesStep(a, k);
  }

  lemma {:induction false} IndexFromPrefix(a: string, b: string, from: nat)
    requires from <= |a|
    requires IndexFrom(a, '\n', from) < |a|
    ensures IndexFrom(a + b, '\n', from) == IndexFrom(a, '\n', from)
    decreases |a| - from
  {
    if a[from] != '\n' {
      IndexFromPrefix(a, b, from + 1);
    }
  }

  /** A single line with no inner "\n" splits into itself alone. */
  lemma SplitSingleLine(x: string)
    requires '\n' !in x
    ensures SplitLines(x + "\n") == [x + "\n"]
  {
    var s := x + "\n";
    assert forall i :: 0 <= i < |x| ==> s[i] != '\n';
    assert s[|x|] == '\n';
    assert IndexFrom(s, '\n', 0) == |x|;
    assert s[|x| + 1..] == [];
    assert s[..|x| + 1] == s;
  }

  /** A text made of whole lines, each ending in its only "\n", splits back into exactly those lines. */
  lemma {:induction false} SplitWholeLines(ls: seq<string>)
    requires forall i :: 0 <= i < |ls| ==> WholeLine(ls[i])
    ensures SplitLines(Concat(ls)) == ls
  {
    if ls != [] {
      var l := ls[0];
      var x := l[..|l| - 1];
      assert l == x + "\n";
      assert '\n' !in x by {
        forall i | 0 <= i < |x| ensures x[i] != '\n' {
          assert x[i] == l[i];
        }
      }
      SplitSingleLine(x);
      SplitLinesAppend(l, Concat(ls[1..]));
      SplitWholeLines(ls[1..]);
      assert ls == [l] + ls[1..];
    }
  }

  /** A whole line in front of a text is split off as the first line. */
  lemma SplitLinesCons(l: string, rest: string)
    requires WholeLine(l)
    ensures SplitLines(l + rest) == [l] + SplitLines(rest)
  {
    var x := l[..|l| - 1];
    assert l == x + "\n";
    assert '\n' !in x by {
      forall i | 0 <= i < |x| ensures x[i] != '\n' {
        assert x[i] == l[i];
      }
    }
    SplitSingleLine(x);
    SplitLinesAppend(l, rest);
  }

  /** Whole lines joined, then any text: splitting gives back the lines, then the text's own lines. */
  lemma {:induction false} SplitLinesThen(ls: seq<string>, rest: string)
    requires forall i :: 0 <= i < |ls| ==> WholeLine(ls[i])
    ensures SplitLines(Concat(ls) + rest) == ls + SplitLines(rest)
  {
    if ls == [] {
      assert Concat(ls) + rest == rest;
    } else {
      var tail := Concat(ls[1..]) + rest;
      assert Concat(ls) + rest == ls[0] + tail;
      assert SplitLines(tail) == ls[1..] + SplitLines(rest) by {
        SplitLinesThen(ls[1..], rest);
      }
      SplitLinesCons(ls[0], tail);
      AppendAssoc([ls[0]], ls[1..], SplitLines(rest));
      assert ls == [ls[0]] + ls[1..];
    }
  }
}

=== FILE: wrappers.dfy ===
/** Option and Result, the failure-carrying values used throughout the model. */
module Wrappers {

  /** A value that may be absent (Ruby's `nil`). */
  datatype Option<+T> = None | Some(value: T)

  /** The outcome of an operation that may raise: a value, or the error it raised. */
  datatype Result<+T, +E> = Ok(value: T) | Err(error: E)
}
